=== FILE: README.md ===
# SafeTrackCampus in Dafny

A model of the logic of SafeTrackCampus, a campus bus tracker. Drivers log in,
their phones report the bus's position, and students see each route's latest
location and where along its stops the bus is.

The model covers three pieces:

- **The in-memory store** (`MemStorage`). It has four JavaScript `Map`s:
  - drivers, keyed by numeric id and looked up by login name;
  - routes, keyed by route id;
  - stop lists, keyed by route id;
  - bus locations, keyed by route id, at most one per route.

  Three counters issue ids. The store also seeds itself at start-up with ten
  routes, ten drivers and the stop lists of routes "1" and "2".
- **The HTTP endpoints.** Each one is a transition of the store that ends in
  a status code of 200, 400, 401 or 404. They also apply the validation rules
  of the shared schema.
- **The student view's display rules.** The route card turns a route's status
  into colours and words. The route details dialog marks each stop as the
  current location, passed or upcoming.

Files:

- `wrappers.dfy`: the `Option` type.
- `ordered_map.dfy`: the JavaScript `Map` as an insertion-ordered list of
  entries with distinct keys. Setting a present key replaces its value in
  place, setting a new key appends it, and deleting removes the entry. This is
  why listing routes or locations returns them in insertion order.
- `schema.dfy`: the record shapes. It also has the login and bus-location
  validators over JSON fields, which can be absent, `null`, a string, or
  anything else.
- `seed_data.dfy`: the literal seed tables.
- `storage.dfy`: the store, its invariant, its operations and the seeding.
- `handlers.dfy`: the endpoints, the dispatcher, and sessions of several
  requests.
- `route_card.dfy` and `route_details.dfy`: the display rules.

The store is an immutable value. Each operation returns the next store, and
each handler returns the next store and the response. The clock reading that
a location report stores is a parameter.

Some behaviours of the code are easy to misread; the model follows the code:

- **Passed stops.** A stop counts as passed when the route has any location
  record and the stop is one of the first three, wherever the bus is. It is
  not "every stop before the current one". With the bus at the fifth stop,
  the fourth stop reads "Upcoming". With the bus at the second stop, the third
  stop reads "Passed".
- **Logout.** Logout deletes the location record filed under the driver's
  login name (for example "1001"), not under the driver's route. The route's
  record stays in place.
- **Passwords.** The seeded drivers' password is `princedriver123`. A comment
  in the store and the login page both say `driver123`, and that password is
  refused.
- **Location reports.** The route id of a report is not checked against the
  known routes. Its status is free text and is not limited to
  `on_route`/`delayed`/`stopped`.

## Model

| member | source | states |
|---|---|---|
| OrderedMap.Get | server/storage.ts:164-166 | `Map.get`: a value comes back exactly for a present key, and it is the value of that key's entry |
| OrderedMap.Set | server/storage.ts:217 | `Map.set`: the key then maps to the value and no other key changes. A present key keeps its position; a new key is appended at the end |
| OrderedMap.Delete | server/storage.ts:221-223 | `Map.delete`: the key is gone and every other key keeps its value. Deleting a present key removes exactly its entry, so the other entries keep their order; deleting an absent key changes nothing |
| OrderedMap.Values | server/storage.ts:168-170 | `Array.from(map.values())`: one value per entry, in entry order |
| OrderedMap.SetNewKey | server/storage.ts:136 | setting a key that is not present appends exactly one entry |
| OrderedMap.DeleteIdempotent | server/storage.ts:221-223 | deleting a key twice is the same as deleting it once |
| Schema.NonEmptyString | shared/schema.ts:72-73 | `z.string().min(1)` accepts exactly the strings of length at least one |
| Schema.RequiredString | shared/schema.ts:32-35 | a required text column accepts exactly strings, and the empty string is among them |
| Schema.OptionalString | shared/schema.ts:36-37 | a nullable column accepts absent and `null` as no value; a defaulted column accepts absent but not `null`. Both accept any string |
| Schema.ParseLogin | shared/schema.ts:71-74 | login input is accepted iff both fields are non-empty strings, and the credentials are those strings |
| Schema.ParseInsertBusLocation | shared/schema.ts:62-69 | a bus-location insert is accepted iff route id, driver id, latitude and longitude are strings, current stop is absent, null or a string, and status is absent or a string. The result carries exactly those six fields |
| Schema.LoginRoundTrip | shared/schema.ts:71-74 | any credentials with non-empty fields, sent as a body, parse back to themselves |
| Schema.BusLocationRoundTrip | shared/schema.ts:62-69 | any insert record, sent as a body, parses back to itself |
| Schema.NullCurrentStopAccepted | shared/schema.ts:36 | a `null` current stop is accepted and read as no current stop |
| Storage.FindDriver | server/storage.ts:145 | the position of the first driver with this login name: every earlier driver has another name. Nothing is found only when no driver has the name |
| Storage.GetDriverByDriverId | server/storage.ts:144-146 | the lookup finds nothing iff no driver has the login name; otherwise it returns a stored driver with that name, which under the invariant is the only one |
| Storage.UpdateDriverStatus | server/storage.ts:155-162 | an unknown login name returns nothing and leaves the store unchanged; otherwise it returns the driver with the new flag. Only the driver table changes |
| Storage.UpdateDriverStatusInPlace | server/storage.ts:155-162 | only the matching driver's `isActive` changes, every entry keeps its place, and the invariant is kept |
| Storage.UpdateDriverStatusReadBack | server/storage.ts:155-162 | after the update, looking up the login name returns what the update returned |
| Storage.UpdateDriverStatusLeavesOthers | server/storage.ts:155-162 | after the update, every other login name returns what it returned before |
| Storage.GetRoute | server/storage.ts:164-166 | a route is found iff one is filed under the id, and it is the value stored under that id |
| Storage.GetAllRoutes | server/storage.ts:168-170 | one route per entry, in insertion order; every route that can be looked up is listed |
| Storage.GetStopsByRoute | server/storage.ts:187-189 | a route with no stop list gives the empty list; otherwise its stored list |
| Storage.CreateStop | server/storage.ts:191-198 | the new stop takes the next stop id and is appended to its route's list, which is created if missing. Earlier stops are kept, other routes' lists are unchanged, and the counter goes up by one |
| Storage.CreateStopKeepsValid | server/storage.ts:191-198 | the new stop's id is above every stored stop id, and the invariant is kept |
| Storage.GetBusLocationByRoute | server/storage.ts:200-202 | a record is found iff one is filed under the route, and it is the record stored under that route |
| Storage.GetAllBusLocations | server/storage.ts:204-206 | one record per stored route, in insertion order; every record that can be looked up is listed |
| Storage.StatusOrDefault | server/storage.ts:213 | an absent or empty status becomes `on_route`; any other status is kept |
| Storage.CurrentStopOrNull | server/storage.ts:214 | an absent or empty current stop becomes `null`; any other is kept |
| Storage.UpdateBusLocation | server/storage.ts:208-219 | the record gets the next location id and the counter goes up by one. Its fields are copied from the input with the two defaults, and its time is `now`. It is then the only record for its route, and every other route's record is unchanged. A route that already had a record keeps its place in the listing; a new route's record goes last |
| Storage.UpdateBusLocationKeepsValid | server/storage.ts:34 | the new record's id is above the id of every record already stored, and the invariant is kept |
| Storage.DeleteBusLocation | server/storage.ts:221-223 | the route has no record afterwards, every other route's record is unchanged and the remaining records keep their order, and deleting an absent record changes nothing |
| Storage.DeleteBusLocationKeepsValid | server/storage.ts:221-223 | deleting keeps the invariant |
| Storage.DeleteBusLocationIdempotent | server/storage.ts:221-223 | deleting twice is the same as deleting once |
| Storage.ListedRecordIsServed | server/storage.ts:200-206 | in a valid store, every listed record is the one that is looked up for its route |
| Storage.AtMostOneRecordPerRoute | server/storage.ts:31 | in a valid store, no two listed records belong to the same route |
| Storage.StopEntriesNumbered | server/storage.ts:128-137 | seeding gives the stops, list after list, consecutive ids starting at the counter's value |
| Storage.SeedShape | server/storage.ts:40-80 | seeding adds every route as active in the given order. It gives the drivers ids 1, 2, … as inactive, and files each stop list under its route |
| Storage.SeedValid | server/storage.ts:40-137 | seeding a configuration with unique route ids and login names, and drivers on known routes, yields a valid store |
| Storage.ShippedConfigurationWellFormed | server/storage.ts:42-71 | the shipped routes have unique ids and the shipped drivers unique login names, and each driver is on a shipped route |
| Storage.ShippedDriversMatchRoutes | server/storage.ts:43-70 | there is one shipped driver per shipped route, on that route |
| Storage.InitialStoreIsSeeded | server/storage.ts:36-38 | the start-up store is the result of seeding with the shipped tables |
| Storage.InitialStore | server/storage.ts:32-38 | the start-up store files every route under its own id, holds no bus location and issues location ids from 1 |
| Storage.InitialStoreValid | server/storage.ts:36-38 | the start-up store satisfies the invariant |
| Storage.Seed | server/storage.ts:40-137 | seeding files routes under exactly the configured route ids and stop lists under exactly the configured list keys, gives drivers ids between 1 and their count, leaves no bus location, and advances the driver and stop counters by the number of drivers and stops |
| Storage.AddRoutes | server/storage.ts:42-57 | seeding routes adds exactly the configured route ids to the keys |
| Storage.AddDrivers | server/storage.ts:59-80 | seeding drivers advances the counter once per driver, adds only keys in the issued range, and leaves smaller keys unchanged |
| Storage.AddStops | server/storage.ts:128-137 | seeding stop lists adds exactly the configured list keys |
| Storage.NumberStops | server/storage.ts:129-135 | one stop per configured stop, with its name and time, on the route, sequences 1, 2, … and increasing ids from the first id on, all below the advanced counter |
| Storage.Valid | shared/schema.ts:6-7 | under the invariant the id the driver counter issues next is not a stored driver's key |
| Storage.CountersIssueFreshIds | server/storage.ts:32-34 | under the invariant no stored stop or location record carries the id its counter issues next |
| Storage.InitialCounters | server/storage.ts:32-34 | after seeding, the next driver id is 11, the next stop id 39 and the next location id 1 |
| Storage.ShippedStopCount | server/storage.ts:83-126 | 38 stops are shipped |
| Storage.StopsByRouteSequenced | server/storage.ts:187-189 | if every stored list is numbered 1, 2, … then so is the list returned for any route |
| Storage.SeededStopsNumberedFromOne | server/storage.ts:134 | every route's seeded stops carry sequences 1, 2, … in order |
| Storage.SeededStopIdsIncrease | server/storage.ts:128-137 | the seeded stops, route after route, carry ids 1 to 38: distinct and increasing across routes |
| Storage.InitialRoute1 | server/storage.ts:43 | route "1" is "Route 1", "Prince School", 22 stops, active |
| Storage.InitialRoute2 | server/storage.ts:44 | route "2" is "Route 2", "Perungudi", 16 stops, active |
| Storage.SeededRoute1CountMatchesTotal | server/storage.ts:43 | route "1" has 22 seeded stops, its advertised total |
| Storage.SeededRoute2CountMatchesTotal | server/storage.ts:44 | route "2" has 16 seeded stops, its advertised total |
| Storage.OnlyRoutes1And2HaveStops | server/storage.ts:187-189 | in the start-up store, every route id other than "1" and "2" has an empty stop list |
| Storage.SeededRoutesAdvertiseStops | server/storage.ts:42-57 | every seeded route advertises a positive number of stops |
| Storage.SeededDriversInactive | server/storage.ts:73-76 | every seeded driver starts inactive, with the shared password `princedriver123` |
| Storage.SeededDriversOnSeededRoutes | server/storage.ts:60-71 | every seeded driver's route id is a seeded route id |
| Storage.SeededDriver1001 | server/storage.ts:61 | driver "1001" is stored with id 1, the shared password, the name "Route 1 Driver" and route "1", and is inactive |
| Handlers.HandleLogin | server/routes.ts:9-33 | a malformed body gives 400 and no change. An unknown driver or a wrong password gives 401 with the same response and no change. Otherwise the result is 200 with the driver's id, login name, name and route, but never the password, and the driver is marked active |
| Handlers.NamesDriver | server/routes.ts:40 | the logout guard's truthiness test: an absent, `null` or empty `driverId` is falsy, and a value passes it exactly when it is a non-empty string |
| Handlers.HandleLogout | server/routes.ts:36-49 | always 200. A non-empty login name deactivates that driver and deletes the record filed under the same string, leaving every other record in its order. Routes, stops and the counters stay as they were; any other body changes nothing |
| Handlers.HandleListRoutes | server/routes.ts:52-59 | 200 with every stored route, one per entry in insertion order; store unchanged |
| Handlers.HandleRouteDetails | server/routes.ts:62-74 | 404 "Route not found" iff the route is unknown; otherwise the route with exactly its stop list |
| Handlers.HandleListBusLocations | server/routes.ts:77-84 | 200 with every stored record, one per entry in insertion order; store unchanged |
| Handlers.HandleReport | server/routes.ts:87-95 | invalid data gives 400 with no change; valid data performs exactly one location update and returns its record |
| Handlers.HandleFetch | server/routes.ts:98-108 | 404 "Bus location not found" iff no record exists for the route; otherwise the stored record |
| Handlers.HandleStopSharing | server/routes.ts:111-118 | always 200. The route has no record afterwards, other routes are unchanged, and the remaining records keep their order; no record means no change. Nothing but the location table changes |
| Handlers.Handle | server/routes.ts:7-118 | every response is 200, 400, 401 or 404. Only login and reports answer 400, and only login answers 401. A refused request changes nothing |
| Handlers.HandleFrame | server/routes.ts:19 | no request changes routes, stop lists or the stop and driver counters. Drivers change only their active flag, the location counter never goes back, and a report takes the counter's value as its id |
| Handlers.HandleKeepsValid | server/routes.ts:7-118 | every request keeps the store invariant |
| Handlers.ReportedIdsFromCounter | server/storage.ts:209 | every record reported in a session has an id between the starting counter and the counter after the report |
| Handlers.ReportedIdsIncrease | server/storage.ts:209 | the records reported in a session carry strictly increasing ids |
| Handlers.WrongPasswordLooksLikeUnknownDriver | server/routes.ts:14-15 | a wrong password and an unknown login name produce identical responses |
| Handlers.LoginActivates | server/routes.ts:19 | after a successful login the driver reads as active, and every other login name reads as before |
| Handlers.LogoutKeepsRouteLocation | server/routes.ts:42 | after a report for route "1" by driver "1001", logging out "1001" leaves route "1"'s record in place |
| Handlers.LastReportWins | server/storage.ts:217 | after two valid reports for one route, the second record is served and the first is no longer listed |
| Handlers.ReportsForUnknownRoutesAreKept | server/routes.ts:89-91 | a report for a route the store does not know is accepted, stored and served |
| Handlers.StopSharingIdempotent | server/routes.ts:111-118 | stopping sharing twice is the same as stopping it once, response included |
| Handlers.AdvertisedPasswordRejected | server/storage.ts:59-61 | in the start-up store, driver "1001" with the advertised password `driver123` gets 401 and the store is unchanged |
| Handlers.SharedPasswordAccepted | server/storage.ts:61 | in the start-up store, driver "1001" with `princedriver123` logs in and gets id 1, name "Route 1 Driver" and route "1" |
| RouteCard.KindOf | client/src/components/route-card.tsx:23-73 | the three named statuses, with everything else, a missing status included, in the default case |
| RouteCard.StatusColor | client/src/components/route-card.tsx:23-34 | green, yellow or red text for on_route, delayed or stopped; grey otherwise |
| RouteCard.StatusText | client/src/components/route-card.tsx:36-47 | "On Route", "Delayed" or "Stopped"; "Offline" otherwise, including when there is no status |
| RouteCard.StatusDot | client/src/components/route-card.tsx:49-60 | a pulsing green dot on route, yellow delayed, red stopped; grey otherwise |
| RouteCard.CardBorder | client/src/components/route-card.tsx:62-73 | green, yellow or red border for the three named statuses; grey otherwise |
| RouteCard.TileBackground | client/src/components/route-card.tsx:80-84 | the route tile's background follows the same three cases and the grey default |
| RouteCard.TileTextIsStatusColor | client/src/components/route-card.tsx:85-89 | the route number's colour equals the status word's colour for every status |
| RouteCard.AreaCaption | client/src/components/route-card.tsx:108-110 | "Current Area:" iff the status is on_route, otherwise "Last Known:" |
| RouteCard.CurrentStopText | client/src/components/route-card.tsx:111-113 | "Not Available" when the current stop is absent or empty, otherwise the stop |
| RouteCard.CardFor | client/src/components/route-card.tsx:75-144 | the last-updated row appears iff a record exists, and the details button is disabled iff none does. Without a record the card reads "Offline", "Last Known:" and "Not Available". Border, tile, tile text, dot and word colour are the mappings of the record's status, or of no status; the caption is "Current Area:" iff the record says `on_route`, and "Last Known:" otherwise |
| RouteCard.CardFollowsKind | client/src/components/route-card.tsx:75-144 | two records whose statuses fall in the same case give the same card apart from the location row; an undocumented status gives the colours and word of a route without a record |
| RouteCard.TileText | client/src/components/route-card.tsx:85-89 | the route number is green, yellow or red for `on_route`, `delayed` and `stopped`, grey otherwise and without a record |
| RouteCard.MappingsAgree | client/src/components/route-card.tsx:23-73 | each of the mapping functions tells two statuses apart exactly when they fall in different cases |
| RouteCard.UndocumentedStatusIsOffline | client/src/components/route-card.tsx:36-47 | a status outside the three documented values reads "Offline", just like no record |
| RouteDetailsView.Classify | client/src/components/route-details-modal.tsx:93-106 | a stop is current iff a record exists and its current stop equals the stop's name exactly. Otherwise it is passed iff a record exists and the stop is among the first three, and otherwise it is upcoming |
| RouteDetailsView.Caption | client/src/components/route-details-modal.tsx:126-129 | "Current location", "Passed" or "Upcoming", one per state |
| RouteDetailsView.Note | client/src/components/route-details-modal.tsx:140-143 | "Now", "Completed" or "Scheduled", one per state |
| RouteDetailsView.Tone | client/src/components/route-details-modal.tsx:100-106 | blue, green or grey row, one per state |
| RouteDetailsView.TimeText | client/src/components/route-details-modal.tsx:138 | an empty scheduled time shows as "N/A"; any other is shown as is |
| RouteDetailsView.Row | client/src/components/route-details-modal.tsx:93-145 | a row shows the stop's name and time text. Its badge is the stop number (index + 1) iff the stop is upcoming, a pin iff it is current, and a check mark iff it is passed. Caption, note and tone follow its state |
| RouteDetailsView.Rows | client/src/components/route-details-modal.tsx:93 | one row per stop, in the order given |
| RouteDetailsView.StatusSentence | client/src/components/route-details-modal.tsx:77-80 | "on route" for on_route, "delayed" for delayed, "stopped" for everything else |
| RouteDetailsView.StatusDot | client/src/components/route-details-modal.tsx:73-76 | pulsing green on route, yellow delayed, red for everything else |
| RouteDetailsView.NoLocationAllUpcoming | client/src/components/route-details-modal.tsx:94-95 | with no record, every stop is upcoming, reads "Upcoming" and shows its number |
| RouteDetailsView.PassedOnlyAmongFirstThree | client/src/components/route-details-modal.tsx:95 | the rows reading "Passed" are among the first three, so there are at most three |
| RouteDetailsView.PassedFlagIgnoresCurrentStop | client/src/components/route-details-modal.tsx:94-95 | for a stop that neither record names as current, any two records classify it alike, and it reads passed exactly when its index is below 3 |
| RouteDetailsView.CurrentBeatsPassed | client/src/components/route-details-modal.tsx:100-106 | a current stop among the first three reads "Current location" and "Now" |
| RouteDetailsView.FifthStopScenario | client/src/components/route-details-modal.tsx:94-95 | with distinct stop names and the bus at the fifth stop, stops 1-3 read "Passed", stop 4 "Upcoming" and stop 5 "Current location" |
| RouteDetailsView.PassedAheadOfBus | client/src/components/route-details-modal.tsx:95 | with the bus at the second stop, the third stop still reads "Passed" |
| RouteDetailsView.SentenceAgreesWithCard | client/src/components/route-details-modal.tsx:77-80 | the dialog says "stopped" exactly for the statuses the card shows as "Stopped" or "Offline", and "on route" exactly for "On Route" |
| RouteDetailsView.DotAgreesWithCard | client/src/components/route-details-modal.tsx:73-76 | the dialog's dot equals the card's for the three named statuses; any other status is red in the dialog and grey on the card |

## Left out

- The asynchronous Express plumbing and the 500 answers. Nothing in the
  sequential in-memory store can throw, so those branches cannot be reached
  in this model.
- Concurrency between requests and between periodic location writers. Each
  request is handled to completion before the next, so the last applied write
  wins.
- Request bodies that are not JSON objects. Destructuring such a body throws,
  which would lead to a 500 in logout.
- Logout with a non-string truthy `driverId`, such as a number. No string key
  can equal it, so it changes nothing, and the model treats it like an empty
  body.
- The zod and drizzle internals. Each schema is stated as an explicit
  predicate. Latitude and longitude stay opaque strings, without parsing or
  decimal precision.
- The wall clock. The time a report stores is the `now` parameter. Formatting
  it with `toLocaleTimeString` is not modelled.
- `getDriver`, `createDriver`, `createRoute` and `updateRouteStatus` in the
  store. No endpoint calls them. `createStop` is modelled, although no
  endpoint calls it either.
- Aliasing of stored objects. `updateDriverStatus` mutates the stored driver
  object in place (server/storage.ts:158). Login reads that same object after
  the update (server/routes.ts:19, :24-27), but only its `id`, `driverId`,
  `name` and `routeId`, none of which the update touches. Plain values
  therefore give the same responses.
- The admin view (geolocation, timers, the fixed progress bar), the Google
  Maps components, the home page, the header, and the student view's query
  wiring. These hold no logic beyond finding a route's record in the list.
- The route details dialog's loading skeleton, its header with the stop
  count, and its fixed journey-time text.
- Storage.UpdateDriverStatusReadBack: stated for stores that satisfy the
  invariant. Under the invariant login names are unique, which the store's
  `find` relies on.
- Handlers.HandleFrame: stated for stores that satisfy the invariant. Every
  store reachable from the start-up store satisfies it (`InitialStoreValid`,
  `HandleKeepsValid`).

=== FILE: handlers.dfy ===
/**
  The HTTP endpoints of the server as transitions of the store. Each request
  is handled to completion before the next one starts, so a handler is a pure
  function from the store (and, for reports, the clock reading) to the next
  store and the response. Validation failures and lookups that find nothing
  answer with a status code and a fixed message; nothing else can fail.
 */
module Handlers {
  import opened Wrappers
  import opened OrderedMap
  import opened Schema
  import opened Storage
  import SeedData

  /** What a driver sees of itself after logging in: never the password. */
  datatype DriverSummary = DriverSummary(id: nat, driverId: string, name: string, routeId: string)

  /** The JSON body of a response. */
  datatype Body =
    | LoggedIn(driver: DriverSummary)              // { success: true, driver }
    | Done                                         // { success: true }
    | RouteList(routes: seq<Route>)
    | RouteDetail(route: Route, stops: seq<Stop>)  // the route's fields spread, plus `stops`
    | LocationList(locations: seq<BusLocation>)
    | Location(location: BusLocation)
    | Message(message: string)                     // { message } of a refused request

  datatype Response = Response(status: int, body: Body)

  const OK := 200
  const BadRequest := 400
  const Unauthorized := 401
  const NotFound := 404

  datatype Request =
    | Login(credentials: LoginBody)          // POST /api/auth/login
    | Logout(driverId: Json)                 // POST /api/auth/logout
    | ListRoutes                             // GET /api/routes
    | RouteDetails(id: string)               // GET /api/routes/:id
    | ListBusLocations                       // GET /api/bus-locations
    | ReportBusLocation(report: BusLocationBody) // POST /api/bus-locations
    | FetchBusLocation(routeId: string)      // GET /api/bus-locations/:routeId
    | StopSharing(routeId: string)           // DELETE /api/bus-locations/:routeId

  datatype Outcome = Outcome(store: Store, response: Response)

  function Refuse(status: int, message: string): Response {
    Response(status, Message(message))
  }

  function Summary(d: Driver): DriverSummary {
    DriverSummary(d.id, d.driverId, d.name, d.routeId)
  }

  /**
    JavaScript truthiness of the logout body's `driverId`, as far as it
    matters: a non-empty string. A truthy value of another JSON type names no
    stored driver or route, so treating it as falsy leaves the outcome unchanged.
   */
  predicate NamesDriver(j: Json)
    ensures j.Absent? || j.Null? || j == Str("") ==> !NamesDriver(j)
    ensures NamesDriver(j) ==> j.Str? && |j.s| > 0
    ensures j.Str? && j.s != "" ==> NamesDriver(j)
  {
    j.Str? && j.s != ""
  }

  // ---------------------------------------------------------------- authentication

  /**
    Login: a malformed body is refused with 400 and no change; an unknown
    driver and a wrong password get the same 401; otherwise the driver is
    marked active and its summary returned.
   */
  function HandleLogin(s: Store, b: LoginBody): (r: Outcome)
    ensures ParseLogin(b).None? ==> r == Outcome(s, Refuse(BadRequest, "Invalid request data"))
    ensures r.response.status == Unauthorized ==> r == Outcome(s, Refuse(Unauthorized, "Invalid credentials"))
    ensures r.response.status == Unauthorized <==>
      ParseLogin(b).Some? &&
      (GetDriverByDriverId(s, ParseLogin(b).value.driverId).None? ||
       GetDriverByDriverId(s, ParseLogin(b).value.driverId).value.password != ParseLogin(b).value.password)
    ensures r.response.status == OK <==> ParseLogin(b).Some? && r.response.status != Unauthorized
    ensures r.response.status == OK ==>
      var d := GetDriverByDriverId(s, b.driverId.s).value;
      && d.password == b.password.s
      && r.response.body == LoggedIn(Summary(d))
      && r.store == UpdateDriverStatus(s, b.driverId.s, true).store
  {
    match ParseLogin(b)
    case None => Outcome(s, Refuse(BadRequest, "Invalid request data"))
    case Some(c) =>
      match GetDriverByDriverId(s, c.driverId)
      case None => Outcome(s, Refuse(Unauthorized, "Invalid credentials"))
      case Some(d) =>
        if d.password != c.password then Outcome(s, Refuse(Unauthorized, "Invalid credentials"))
        else Outcome(UpdateDriverStatus(s, c.driverId, true).store, Response(OK, LoggedIn(Summary(d))))
  }

  /**
    Logout always succeeds. A non-empty login name deactivates that driver and
    deletes the location record filed under the same string, read as a route id.
   */
  function HandleLogout(s: Store, driverId: Json): (r: Outcome)
    ensures r.response == Response(OK, Done)
    ensures !NamesDriver(driverId) ==> r.store == s
    ensures NamesDriver(driverId) ==>
      && GetBusLocationByRoute(r.store, driverId.s).None?
      && (forall id :: id != driverId.s ==> GetBusLocationByRoute(r.store, id) == GetBusLocationByRoute(s, id))
      && r.store.drivers == UpdateDriverStatus(s, driverId.s, false).store.drivers
    // routes, stops and the counters stay as they were
    ensures r.store == s.(drivers := r.store.drivers, busLocations := r.store.busLocations)
    // the remaining records keep their order
    ensures NamesDriver(driverId) && driverId.s in Keys(s.busLocations) ==>
      exists i :: 0 <= i < |s.busLocations| && s.busLocations[i].key == driverId.s &&
                  r.store.busLocations == s.busLocations[..i] + s.busLocations[i + 1..]
  {
    if NamesDriver(driverId) then
      var s' := UpdateDriverStatus(s, driverId.s, false).store;
      Outcome(Storage.DeleteBusLocation(s', driverId.s), Response(OK, Done))
    else
      Outcome(s, Response(OK, Done))
  }

  // ---------------------------------------------------------------- routes

  function HandleListRoutes(s: Store): (r: Outcome)
    ensures r.store == s && r.response.status == OK
    ensures r.response.body.RouteList?
    ensures forall id :: GetRoute(s, id).Some? ==> GetRoute(s, id).value in r.response.body.routes
    ensures |r.response.body.routes| == |s.routes|
    ensures forall i :: 0 <= i < |s.routes| ==> r.response.body.routes[i] == s.routes[i].value
  {
    Outcome(s, Response(OK, RouteList(GetAllRoutes(s))))
  }

  /** Route details: 404 for an unknown route, otherwise the route and exactly its stop list. */
  function HandleRouteDetails(s: Store, id: string): (r: Outcome)
    ensures r.store == s
    ensures r.response.status == NotFound <==> GetRoute(s, id).None?
    ensures GetRoute(s, id).None? ==> r.response == Refuse(NotFound, "Route not found")
    ensures GetRoute(s, id).Some? ==>
      r.response == Response(OK, RouteDetail(GetRoute(s, id).value, GetStopsByRoute(s, id)))
  {
    match GetRoute(s, id)
    case None => Outcome(s, Refuse(NotFound, "Route not found"))
    case Some(route) => Outcome(s, Response(OK, RouteDetail(route, GetStopsByRoute(s, id))))
  }

  // ---------------------------------------------------------------- bus locations

  function HandleListBusLocations(s: Store): (r: Outcome)
    ensures r.store == s && r.response.status == OK
    ensures r.response.body.LocationList?
    ensures forall id :: GetBusLocationByRoute(s, id).Some? ==>
      GetBusLocationByRoute(s, id).value in r.response.body.locations
    ensures |r.response.body.locations| == |s.busLocations|
    ensures forall i :: 0 <= i < |s.busLocations| ==> r.response.body.locations[i] == s.busLocations[i].value
  {
    Outcome(s, Response(OK, LocationList(GetAllBusLocations(s))))
  }

  /**
    A location report: an invalid body is refused with 400 and no change;
    a valid one performs exactly one `updateBusLocation` and returns the new
    record. The route id is not checked against the known routes.
   */
  function HandleReport(s: Store, b: BusLocationBody, now: Time): (r: Outcome)
    ensures ParseInsertBusLocation(b).None? <==> r.response.status == BadRequest
    ensures ParseInsertBusLocation(b).None? ==> r == Outcome(s, Refuse(BadRequest, "Invalid location data"))
    ensures ParseInsertBusLocation(b).Some? ==>
      var step := UpdateBusLocation(s, ParseInsertBusLocation(b).value, now);
      r == Outcome(step.store, Response(OK, Location(step.value)))
  {
    match ParseInsertBusLocation(b)
    case None => Outcome(s, Refuse(BadRequest, "Invalid location data"))
    case Some(x) =>
      var step := UpdateBusLocation(s, x, now);
      Outcome(step.store, Response(OK, Location(step.value)))
  }

  /** 404 exactly when no record is filed under the route; otherwise the stored record. */
  function HandleFetch(s: Store, routeId: string): (r: Outcome)
    ensures r.store == s
    ensures r.response.status == NotFound <==> GetBusLocationByRoute(s, routeId).None?
    ensures GetBusLocationByRoute(s, routeId).None? ==> r.response == Refuse(NotFound, "Bus location not found")
    ensures GetBusLocationByRoute(s, routeId).Some? ==>
      r.response == Response(OK, Location(GetBusLocationByRoute(s, routeId).value))
  {
    match GetBusLocationByRoute(s, routeId)
    case None => Outcome(s, Refuse(NotFound, "Bus location not found"))
    case Some(loc) => Outcome(s, Response(OK, Location(loc)))
  }

  /** Stopping location sharing always succeeds, whether or not a record existed. */
  function HandleStopSharing(s: Store, routeId: string): (r: Outcome)
    ensures r.response == Response(OK, Done)
    ensures GetBusLocationByRoute(r.store, routeId).None?
    ensures forall id :: id != routeId ==> GetBusLocationByRoute(r.store, id) == GetBusLocationByRoute(s, id)
    ensures GetBusLocationByRoute(s, routeId).None? ==> r.store == s
    ensures r.store == s.(busLocations := r.store.busLocations)
    ensures routeId in Keys(s.busLocations) ==>
      exists i :: 0 <= i < |s.busLocations| && s.busLocations[i].key == routeId &&
                  r.store.busLocations == s.busLocations[..i] + s.busLocations[i + 1..]
  {
    Outcome(Storage.DeleteBusLocation(s, routeId), Response(OK, Done))
  }

  // ---------------------------------------------------------------- dispatch

  /** The server: one request, handled to completion. Only reports read the clock. */
  function Handle(s: Store, req: Request, now: Time): (r: Outcome)
    ensures r.response.status in {OK, BadRequest, Unauthorized, NotFound}
    ensures r.response.status == BadRequest ==> req.Login? || req.ReportBusLocation?
    ensures r.response.status == Unauthorized ==> req.Login?
    ensures r.response.status != OK ==> r.store == s
  {
    match req
    case Login(b) => HandleLogin(s, b)
    case Logout(d) => HandleLogout(s, d)
    case ListRoutes => HandleListRoutes(s)
    case RouteDetails(id) => HandleRouteDetails(s, id)
    case ListBusLocations => HandleListBusLocations(s)
    case ReportBusLocation(b) => HandleReport(s, b, now)
    case FetchBusLocation(routeId) => HandleFetch(s, routeId)
    case StopSharing(routeId) => HandleStopSharing(s, routeId)
  }

  /** Whether this step stored a new location record. */
  predicate Reported(req: Request, o: Outcome) {
    req.ReportBusLocation? && o.response.body.Location?
  }

  /**
    What a request may change: routes, stop lists and the stop and driver
    counters never change; drivers keep their places and everything but the
    active flag; the location counter never goes back.
   */
  predicate Evolves(s: Store, r: Store) {
    && r.routes == s.routes && r.stops == s.stops
    && r.nextStopId == s.nextStopId && r.nextDriverId == s.nextDriverId
    && r.nextLocationId >= s.nextLocationId
    && |r.drivers| == |s.drivers|
    && forall i :: 0 <= i < |s.drivers| ==>
         r.drivers[i] == Entry(s.drivers[i].key, s.drivers[i].value.(isActive := r.drivers[i].value.isActive))
  }

  lemma StatusChangeEvolves(s: Store, driverId: string, isActive: bool)
    requires Valid(s)
    ensures Evolves(s, UpdateDriverStatus(s, driverId, isActive).store)
  {
    UpdateDriverStatusInPlace(s, driverId, isActive);
  }

  /** Every request only evolves the store, and a report takes the counter's current value as its record id. */
  lemma HandleFrame(s: Store, req: Request, now: Time)
    requires Valid(s)
    ensures Evolves(s, Handle(s, req, now).store)
    ensures Reported(req, Handle(s, req, now)) ==>
      && Handle(s, req, now).response.body.location.id == s.nextLocationId
      && Handle(s, req, now).store.nextLocationId == s.nextLocationId + 1
  {
    match req
    case Login(b) =>
      if ParseLogin(b).Some? {
        StatusChangeEvolves(s, b.driverId.s, true);
      }
    case Logout(d) =>
      if NamesDriver(d) {
        StatusChangeEvolves(s, d.s, false);
      }
    case _ =>
  }

  /** Every request keeps the store invariant. */
  lemma HandleKeepsValid(s: Store, req: Request, now: Time)
    requires Valid(s)
    ensures Valid(Handle(s, req, now).store)
  {
    match req
    case Login(b) =>
      if ParseLogin(b).Some? {
        UpdateDriverStatusInPlace(s, b.driverId.s, true);
      }
    case Logout(d) =>
      if NamesDriver(d) {
        UpdateDriverStatusInPlace(s, d.s, false);
        DeleteBusLocationKeepsValid(UpdateDriverStatus(s, d.s, false).store, d.s);
      }
    case ReportBusLocation(b) =>
      if ParseInsertBusLocation(b).Some? {
        UpdateBusLocationKeepsValid(s, ParseInsertBusLocation(b).value, now);
      }
    case StopSharing(routeId) =>
      DeleteBusLocationKeepsValid(s, routeId);
    case _ =>
  }

  // ---------------------------------------------------------------- sessions

  datatype Call = Call(request: Request, now: Time)

  /** The outcome of each call of a sequence, each handled on the store the previous one left. */
  function Replay(s: Store, calls: seq<Call>): (r: seq<Outcome>)
    ensures |r| == |calls|
    decreases |calls|
  {
    if |calls| == 0 then []
    else
      var o := Handle(s, calls[0].request, calls[0].now);
      [o] + Replay(o.store, calls[1..])
  }

  /** Every record a session reports carries an id no smaller than the counter it started from. */
  lemma {:induction false} ReportedIdsFromCounter(s: Store, calls: seq<Call>)
    requires Valid(s)
    ensures var r := Replay(s, calls);
      forall i :: 0 <= i < |calls| ==>
        && r[i].store.nextLocationId >= s.nextLocationId
        && (Reported(calls[i].request, r[i]) ==> s.nextLocationId <= r[i].response.body.location.id < r[i].store.nextLocationId)
    decreases |calls|
  {
    if |calls| > 0 {
      var r := Replay(s, calls);
      var o := Handle(s, calls[0].request, calls[0].now);
      HandleFrame(s, calls[0].request, calls[0].now);
      HandleKeepsValid(s, calls[0].request, calls[0].now);
      ReportedIdsFromCounter(o.store, calls[1..]);
      assert r[1..] == Replay(o.store, calls[1..]);
      forall i | 0 <= i < |calls|
        ensures r[i].store.nextLocationId >= s.nextLocationId
        ensures Reported(calls[i].request, r[i]) ==>
          s.nextLocationId <= r[i].response.body.location.id < r[i].store.nextLocationId
      {
        if i > 0 {
          assert r[i] == Replay(o.store, calls[1..])[i - 1] && calls[i] == calls[1..][i - 1];
        }
      }
    }
  }

  /** Location records reported during a session carry strictly increasing ids. */
  lemma {:induction false} ReportedIdsIncrease(s: Store, calls: seq<Call>)
    requires Valid(s)
    ensures var r := Replay(s, calls);
      forall i, j :: 0 <= i < j < |calls| && Reported(calls[i].request, r[i]) && Reported(calls[j].request, r[j]) ==>
        r[i].response.body.location.id < r[j].response.body.location.id
    decreases |calls|
  {
    if |calls| > 0 {
      var r := Replay(s, calls);
      var o := Handle(s, calls[0].request, calls[0].now);
      HandleFrame(s, calls[0].request, calls[0].now);
      HandleKeepsValid(s, calls[0].request, calls[0].now);
      ReportedIdsIncrease(o.store, calls[1..]);
      ReportedIdsFromCounter(o.store, calls[1..]);
      assert r[1..] == Replay(o.store, calls[1..]);
      forall i | 1 <= i < |calls|
        ensures r[i] == Replay(o.store, calls[1..])[i - 1] && calls[i] == calls[1..][i - 1]
      {
      }
    }
  }

  // ---------------------------------------------------------------- properties

  /** A wrong password and an unknown driver are indistinguishable to the caller. */
  lemma WrongPasswordLooksLikeUnknownDriver(s: Store, t: Store, driverId: string, password: string)
    requires GetDriverByDriverId(s, driverId).Some? && GetDriverByDriverId(s, driverId).value.password != password
    requires GetDriverByDriverId(t, driverId).None?
    ensures HandleLogin(s, LoginBody(Str(driverId), Str(password))).response ==
            HandleLogin(t, LoginBody(Str(driverId), Str(password))).response
  {
  }

  /** After a successful login the driver reads as active; no other driver changes. */
  lemma LoginActivates(s: Store, b: LoginBody)
    requires Valid(s)
    requires HandleLogin(s, b).response.status == OK
    ensures GetDriverByDriverId(HandleLogin(s, b).store, b.driverId.s) ==
      Some(GetDriverByDriverId(s, b.driverId.s).value.(isActive := true))
    ensures forall id :: id != b.driverId.s ==>
      GetDriverByDriverId(HandleLogin(s, b).store, id) == GetDriverByDriverId(s, id)
  {
    UpdateDriverStatusReadBack(s, b.driverId.s, true);
    UpdateDriverStatusLeavesOthers(s, b.driverId.s, true);
  }

  /**
    Logging out a driver deletes the record filed under the driver's login
    name, not under its route: a record reported for route "1" by driver
    "1001" is still served after "1001" logs out.
   */
  lemma LogoutKeepsRouteLocation(s: Store, b: BusLocationBody, now: Time)
    requires ParseInsertBusLocation(b).Some?
    requires b.routeId == Str("1") && b.driverId == Str("1001")
    ensures var reported := HandleReport(s, b, now);
      var after := HandleLogout(reported.store, Str("1001"));
      HandleFetch(after.store, "1").response == reported.response
  {
  }

  /** Two reports for the same route: only the second one is kept and served. */
  lemma LastReportWins(s: Store, b1: BusLocationBody, b2: BusLocationBody, t1: Time, t2: Time)
    requires Valid(s)
    requires ParseInsertBusLocation(b1).Some? && ParseInsertBusLocation(b2).Some?
    requires b1.routeId == b2.routeId
    ensures var first := HandleReport(s, b1, t1);
      var second := HandleReport(first.store, b2, t2);
      && HandleFetch(second.store, b1.routeId.s).response == second.response
      && first.response.body.location !in GetAllBusLocations(second.store)
  {
    var first := HandleReport(s, b1, t1);
    var second := HandleReport(first.store, b2, t2);
    UpdateBusLocationKeepsValid(s, ParseInsertBusLocation(b1).value, t1);
    UpdateBusLocationKeepsValid(first.store, ParseInsertBusLocation(b2).value, t2);
    if first.response.body.location in GetAllBusLocations(second.store) {
      ListedRecordIsServed(second.store, first.response.body.location);
      assert false;
    }
  }

  /** A report for a route the store does not know is stored and served all the same. */
  lemma ReportsForUnknownRoutesAreKept(s: Store, b: BusLocationBody, now: Time)
    requires ParseInsertBusLocation(b).Some?
    requires GetRoute(s, b.routeId.s).None?
    ensures HandleReport(s, b, now).response.status == OK
    ensures HandleFetch(HandleReport(s, b, now).store, b.routeId.s).response == HandleReport(s, b, now).response
  {
  }

  /** Stopping location sharing twice is stopping it once. */
  lemma StopSharingIdempotent(s: Store, routeId: string)
    ensures var once := HandleStopSharing(s, routeId);
      HandleStopSharing(once.store, routeId) == once
  {
  }

  // ---------------------------------------------------------------- the seeded store

  /** The password the login page advertises is refused for driver "1001". */
  lemma AdvertisedPasswordRejected()
    ensures HandleLogin(InitialStore(), LoginBody(Str("1001"), Str(SeedData.AdvertisedPassword))) ==
      Outcome(InitialStore(), Refuse(Unauthorized, "Invalid credentials"))
  {
    SeededDriver1001();
  }

  /** The password the seeding actually stores logs driver "1001" in on route "1". */
  lemma SharedPasswordAccepted()
    ensures HandleLogin(InitialStore(), LoginBody(Str("1001"), Str(SeedData.SharedPassword))).response ==
      Response(OK, LoggedIn(DriverSummary(1, "1001", "Route 1 Driver", "1")))
  {
    SeededDriver1001();
  }
}

=== FILE: ordered_map.dfy ===
/**
  A model of the JavaScript `Map` the in-memory store is built from.

  A JavaScript `Map` iterates its entries in the order in which their keys
  were first inserted: `set` on a key that is present replaces the value in
  place, `set` on a new key appends an entry at the end, and `delete` removes
  the entry. The model is therefore a sequence of entries in which no key
  occurs twice.
 */
module OrderedMap {
  import opened Wrappers

  datatype Entry<K, V> = Entry(key: K, value: V)

  /** No key occurs in two entries. */
  predicate DistinctKeys<K(==), V>(m: seq<Entry<K, V>>) {
    forall i, j :: 0 <= i < j < |m| ==> m[i].key != m[j].key
  }

  type OMap<K(==), V> = m: seq<Entry<K, V>> | DistinctKeys(m) witness []

  function Keys<K(==), V>(m: seq<Entry<K, V>>): set<K> {
    set i | 0 <= i < |m| :: m[i].key
  }

  /** Position of the entry for `k`, if any. */
  function Find<K(==), V>(m: seq<Entry<K, V>>, k: K): (r: Option<nat>)
    ensures r.Some? ==> r.value < |m| && m[r.value].key == k
    ensures r.Some? ==> forall j :: 0 <= j < r.value ==> m[j].key != k
    ensures r.None? ==> forall j :: 0 <= j < |m| ==> m[j].key != k
  {
    if |m| == 0 then None
    else if m[0].key == k then Some(0)
    else match Find(m[1..], k)
      case Some(i) => Some(i + 1)
      case None => None
  }

  /** `map.get(k)`: the value stored under `k`, or nothing. */
  function Get<K(==), V>(m: OMap<K, V>, k: K): (r: Option<V>)
    ensures r.Some? <==> k in Keys(m)
    ensures r.Some? ==> Entry(k, r.value) in m
    ensures forall i :: 0 <= i < |m| && m[i].key == k ==> r == Some(m[i].value)
  {
    match Find(m, k)
    case Some(i) => Some(m[i].value)
    case None => None
  }

  /** `map.set(k, v)`. */
  function Set<K(==,!new), V>(m: OMap<K, V>, k: K, v: V): (r: OMap<K, V>)
    ensures Get(r, k) == Some(v)
    ensures forall k' :: k' != k ==> Get(r, k') == Get(m, k')
    ensures Keys(r) == Keys(m) + {k}
    // a present key keeps its position; a new key goes to the end
    ensures k in Keys(m) ==> |r| == |m| && forall i :: 0 <= i < |m| && m[i].key != k ==> r[i] == m[i]
    ensures k in Keys(m) ==> forall i :: 0 <= i < |m| && m[i].key == k ==> r[i] == Entry(k, v)
    ensures k !in Keys(m) ==> |r| == |m| + 1 && r[..|m|] == m && r[|m|] == Entry(k, v)
  {
    match Find(m, k)
    case Some(i) =>
      var r := m[i := Entry(k, v)];
      assert forall j :: 0 <= j < |r| ==> r[j].key == m[j].key;
      assert Keys(r) == Keys(m);
      r
    case None =>
      var r := m + [Entry(k, v)];
      assert Keys(r) == Keys(m) + {k} by {
        forall x | x in Keys(r) ensures x in Keys(m) + {k} {
          var j :| 0 <= j < |r| && r[j].key == x;
          if j < |m| { assert m[j].key == x; }
        }
        forall x | x in Keys(m) + {k} ensures x in Keys(r) {
          if x == k { assert r[|m|].key == k; }
          else { var j :| 0 <= j < |m| && m[j].key == x; assert r[j].key == x; }
        }
      }
      r
  }

  /** `map.delete(k)`: removes the entry for `k`, if there is one. */
  function Delete<K(==,!new), V>(m: OMap<K, V>, k: K): (r: OMap<K, V>)
    ensures Get(r, k) == None
    ensures forall k' :: k' != k ==> Get(r, k') == Get(m, k')
    ensures Keys(r) == Keys(m) - {k}
    ensures k !in Keys(m) ==> r == m
    // the other entries keep their order
    ensures k in Keys(m) ==> exists i :: 0 <= i < |m| && m[i].key == k && r == m[..i] + m[i + 1..]
  {
    match Find(m, k)
    case Some(i) =>
      var r := m[..i] + m[i + 1..];
      assert forall j :: 0 <= j < i ==> r[j] == m[j];
      assert forall j :: i <= j < |r| ==> r[j] == m[j + 1];
      assert Keys(r) == Keys(m) - {k} by {
        forall x | x in Keys(r) ensures x in Keys(m) - {k} {
          var j :| 0 <= j < |r| && r[j].key == x;
          if j < i { assert m[j].key == x; } else { assert m[j + 1].key == x; }
        }
        forall x | x in Keys(m) - {k} ensures x in Keys(r) {
          var j :| 0 <= j < |m| && m[j].key == x;
          if j < i { assert r[j].key == x; } else { assert r[j - 1].key == x; }
        }
      }
      r
    case None =>
      m
  }

  /** `Array.from(map.values())`: every stored value once, in iteration order. */
  function Values<K(==,!new), V(!new)>(m: OMap<K, V>): (r: seq<V>)
    ensures |r| == |m|
    ensures forall i :: 0 <= i < |m| ==> Get(m, m[i].key) == Some(r[i])
    ensures forall v :: v in r <==> exists k :: Get(m, k) == Some(v)
  {
    seq(|m|, i requires 0 <= i < |m| => m[i].value)
  }

  /** Setting a new key appends exactly one entry. */
  lemma SetNewKey<K(!new), V>(m: OMap<K, V>, k: K, v: V)
    requires k !in Keys(m)
    ensures Set(m, k, v) == m + [Entry(k, v)]
    ensures Keys(m + [Entry(k, v)]) == Keys(m) + {k}
  {
    var r := Set(m, k, v);
    assert r == r[..|m|] + [r[|m|]];
  }

  /** Deleting twice is deleting once. */
  lemma DeleteIdempotent<K(!new), V>(m: OMap<K, V>, k: K)
    ensures Delete(Delete(m, k), k) == Delete(m, k)
  {
  }
}

=== FILE: route_card.dfy ===
/**
  The route card of the student view: how a route's latest location record,
  if there is one, is turned into colours, a status word and row texts. The
  card only reads the record's `status`, `currentStop` and presence.
 */
module RouteCard {
  import opened Wrappers

  /** The three documented status values; anything else, or no record at all, falls to the default. */
  datatype StatusKind = OnRoute | Delayed | Stopped | Unlisted

  function KindOf(status: Option<string>): (k: StatusKind)
    ensures k == OnRoute <==> status == Some("on_route")
    ensures k == Delayed <==> status == Some("delayed")
    ensures k == Stopped <==> status == Some("stopped")
  {
    if status == Some("on_route") then OnRoute
    else if status == Some("delayed") then Delayed
    else if status == Some("stopped") then Stopped
    else Unlisted
  }

  /** `getStatusColor`: the text colour of the status word. */
  function StatusColor(status: Option<string>): (r: string)
    ensures KindOf(status) == OnRoute ==> r == "text-green-600"
    ensures KindOf(status) == Delayed ==> r == "text-yellow-600"
    ensures KindOf(status) == Stopped ==> r == "text-red-600"
    ensures KindOf(status) == Unlisted ==> r == "text-gray-600"
  {
    match status
    case Some("on_route") => "text-green-600"
    case Some("delayed") => "text-yellow-600"
    case Some("stopped") => "text-red-600"
    case _ => "text-gray-600"
  }

  /** `getStatusText`: the status word; a missing or undocumented status reads "Offline". */
  function StatusText(status: Option<string>): (r: string)
    ensures KindOf(status) == OnRoute ==> r == "On Route"
    ensures KindOf(status) == Delayed ==> r == "Delayed"
    ensures KindOf(status) == Stopped ==> r == "Stopped"
    ensures KindOf(status) == Unlisted ==> r == "Offline"
  {
    match status
    case Some("on_route") => "On Route"
    case Some("delayed") => "Delayed"
    case Some("stopped") => "Stopped"
    case _ => "Offline"
  }

  /** `getStatusDot`: the colour of the dot beside the status word; only a bus on route pulses. */
  function StatusDot(status: Option<string>): (r: string)
    ensures KindOf(status) == OnRoute ==> r == "bg-green-500 animate-pulse"
    ensures KindOf(status) == Delayed ==> r == "bg-yellow-500"
    ensures KindOf(status) == Stopped ==> r == "bg-red-500"
    ensures KindOf(status) == Unlisted ==> r == "bg-gray-400"
  {
    match status
    case Some("on_route") => "bg-green-500 animate-pulse"
    case Some("delayed") => "bg-yellow-500"
    case Some("stopped") => "bg-red-500"
    case _ => "bg-gray-400"
  }

  /** `getCardBorder`: the colour of the card's border. */
  function CardBorder(status: Option<string>): (r: string)
    ensures KindOf(status) == OnRoute ==> r == "border-green-200"
    ensures KindOf(status) == Delayed ==> r == "border-yellow-200"
    ensures KindOf(status) == Stopped ==> r == "border-red-200"
    ensures KindOf(status) == Unlisted ==> r == "border-gray-200"
  {
    match status
    case Some("on_route") => "border-green-200"
    case Some("delayed") => "border-yellow-200"
    case Some("stopped") => "border-red-200"
    case _ => "border-gray-200"
  }

  /** The background of the route-number tile, chosen by an inline chain of comparisons. */
  function TileBackground(status: Option<string>): (r: string)
    ensures KindOf(status) == OnRoute ==> r == "bg-green-100"
    ensures KindOf(status) == Delayed ==> r == "bg-yellow-100"
    ensures KindOf(status) == Stopped ==> r == "bg-red-100"
    ensures KindOf(status) == Unlisted ==> r == "bg-gray-100"
  {
    if status == Some("on_route") then "bg-green-100"
    else if status == Some("delayed") then "bg-yellow-100"
    else if status == Some("stopped") then "bg-red-100"
    else "bg-gray-100"
  }

  /** The colour of the route number in the tile, chosen by its own inline chain. */
  function TileText(status: Option<string>): (r: string)
    ensures KindOf(status) == OnRoute ==> r == "text-green-600"
    ensures KindOf(status) == Delayed ==> r == "text-yellow-600"
    ensures KindOf(status) == Stopped ==> r == "text-red-600"
    ensures KindOf(status) == Unlisted ==> r == "text-gray-600"
  {
    if status == Some("on_route") then "text-green-600"
    else if status == Some("delayed") then "text-yellow-600"
    else if status == Some("stopped") then "text-red-600"
    else "text-gray-600"
  }

  /** The caption of the location row: "Current Area:" for a bus on route, "Last Known:" otherwise. */
  function AreaCaption(status: Option<string>): (r: string)
    ensures r == "Current Area:" <==> status == Some("on_route")
    ensures r == "Current Area:" || r == "Last Known:"
  {
    if status == Some("on_route") then "Current Area:" else "Last Known:"
  }

  /** The location row's value: the current stop, or "Not Available" when there is none or it is empty. */
  function CurrentStopText(currentStop: Option<string>): (r: string)
    ensures currentStop.None? || currentStop == Some("") ==> r == "Not Available"
    ensures currentStop.Some? && currentStop.value != "" ==> r == currentStop.value
  {
    if currentStop.Some? && currentStop.value != "" then currentStop.value else "Not Available"
  }

  /** What the card reads of a location record. */
  datatype CardLocation = CardLocation(status: string, currentStop: Option<string>)

  /** The card's varying parts, for a route with or without a location record. */
  datatype Card = Card(
    border: string, tile: string, tileText: string, dot: string, color: string, statusText: string,
    areaCaption: string, areaText: string, showsLastUpdated: bool, detailsDisabled: bool)

  function Status(loc: Option<CardLocation>): Option<string> {
    if loc.Some? then Some(loc.value.status) else None
  }

  /** The whole card: every colour and word follows the record's status; the last-updated row and the details button follow its presence. */
  function CardFor(loc: Option<CardLocation>): (r: Card)
    ensures r.showsLastUpdated <==> loc.Some?
    ensures r.areaCaption == "Current Area:" <==> loc.Some? && loc.value.status == "on_route"
    ensures loc.Some? && loc.value.status != "on_route" ==> r.areaCaption == "Last Known:"
    ensures r.border == CardBorder(Status(loc)) && r.dot == StatusDot(Status(loc))
    ensures r.color == StatusColor(Status(loc)) && r.tile == TileBackground(Status(loc))
    ensures r.tileText == r.color
    ensures r.detailsDisabled <==> loc.None?
    ensures loc.None? ==> r.statusText == "Offline" && r.areaCaption == "Last Known:" && r.areaText == "Not Available"
    ensures loc.Some? ==> r.statusText == StatusText(Some(loc.value.status))
    ensures loc.Some? ==> r.areaText == CurrentStopText(loc.value.currentStop)
  {
    var status := Status(loc);
    Card(CardBorder(status), TileBackground(status), TileText(status), StatusDot(status),
         StatusColor(status), StatusText(status), AreaCaption(status),
         CurrentStopText(if loc.Some? then loc.value.currentStop else None),
         loc.Some?, !loc.Some?)
  }

  // ---------------------------------------------------------------- properties

  /**
    The mapping functions split their inputs the same way: any one of them
    tells two statuses apart exactly when the three named cases and the
    shared default do.
   */
  lemma MappingsAgree(a: Option<string>, b: Option<string>)
    ensures StatusColor(a) == StatusColor(b) <==> KindOf(a) == KindOf(b)
    ensures StatusText(a) == StatusText(b) <==> KindOf(a) == KindOf(b)
    ensures StatusDot(a) == StatusDot(b) <==> KindOf(a) == KindOf(b)
    ensures CardBorder(a) == CardBorder(b) <==> KindOf(a) == KindOf(b)
    ensures TileBackground(a) == TileBackground(b) <==> KindOf(a) == KindOf(b)
  {
  }

  /** The status values outside the documented three, and a missing record, all read "Offline". */
  lemma UndocumentedStatusIsOffline(status: string)
    requires status != "on_route" && status != "delayed" && status != "stopped"
    ensures StatusText(Some(status)) == StatusText(None) == "Offline"
    ensures CardFor(Some(CardLocation(status, None))).statusText == CardFor(None).statusText
  {
  }

  /**
    Two records whose statuses fall in the same case give cards that differ
    at most in their location row; a record with an undocumented status gives
    the colours and word of a route without one.
   */
  lemma CardFollowsKind(a: CardLocation, b: CardLocation)
    requires KindOf(Some(a.status)) == KindOf(Some(b.status))
    ensures CardFor(Some(a)).(areaCaption := "", areaText := "") == CardFor(Some(b)).(areaCaption := "", areaText := "")
    ensures KindOf(Some(a.status)) == Unlisted ==>
      CardFor(Some(a)).(areaText := "", showsLastUpdated := false, detailsDisabled := true) ==
      CardFor(None).(areaText := "")
  {
  }

  /** The tile's number is coloured by the same rule as the status word. */
  lemma TileTextIsStatusColor(status: Option<string>)
    ensures TileText(status) == StatusColor(status)
  {
  }
}

=== FILE: route_details.dfy ===
/**
  The route details dialog of the student view: the route's stops, each
  marked as the bus's current location, as passed or as upcoming, and a
  sentence about the bus's status.

  "Passed" is not worked out from where the bus is: whenever the route has a
  location record at all, the first three stops are shown as passed. The
  current stop is the one whose name equals the record's `currentStop`, and
  it takes precedence over "passed".
 */
module RouteDetailsView {
  import opened Wrappers
  import opened Schema
  import RouteCard

  datatype StopState = Current | Passed | Upcoming

  /** The stop's name is exactly the record's current stop. */
  predicate IsCurrentStop(loc: Option<BusLocation>, stop: Stop) {
    loc.Some? && loc.value.currentStop == Some(stop.name)
  }

  /** Any record at all flags the first three stops. */
  predicate IsFlaggedPassed(loc: Option<BusLocation>, index: nat) {
    loc.Some? && index < 3
  }

  /** The state a stop is shown in: current before passed before upcoming. */
  function Classify(loc: Option<BusLocation>, stop: Stop, index: nat): (r: StopState)
    ensures r == Current <==> loc.Some? && loc.value.currentStop == Some(stop.name)
    ensures r == Passed <==> loc.Some? && index < 3 && loc.value.currentStop != Some(stop.name)
    ensures r == Upcoming <==> (loc.None? || (index >= 3 && loc.value.currentStop != Some(stop.name)))
  {
    if IsCurrentStop(loc, stop) then Current
    else if IsFlaggedPassed(loc, index) then Passed
    else Upcoming
  }

  /** What the round badge of a row shows: a pin, a check mark, or the stop's number. */
  datatype Badge = Pin | Check | Number(n: nat)

  /** One row of the stop list, as displayed. */
  datatype StopRow = StopRow(name: string, state: StopState, badge: Badge, caption: string, time: string, note: string, tone: string)

  function Caption(state: StopState): (r: string)
    ensures r == "Current location" <==> state == Current
    ensures r == "Passed" <==> state == Passed
    ensures r == "Upcoming" <==> state == Upcoming
  {
    match state
    case Current => "Current location"
    case Passed => "Passed"
    case Upcoming => "Upcoming"
  }

  function Note(state: StopState): (r: string)
    ensures r == "Now" <==> state == Current
    ensures r == "Completed" <==> state == Passed
    ensures r == "Scheduled" <==> state == Upcoming
  {
    match state
    case Current => "Now"
    case Passed => "Completed"
    case Upcoming => "Scheduled"
  }

  /** The row's background and border. */
  function Tone(state: StopState): (r: string)
    ensures r == "bg-blue-50 border-blue-200" <==> state == Current
    ensures r == "bg-green-50 border-green-200" <==> state == Passed
    ensures r == "bg-gray-50 border-gray-200" <==> state == Upcoming
  {
    match state
    case Current => "bg-blue-50 border-blue-200"
    case Passed => "bg-green-50 border-green-200"
    case Upcoming => "bg-gray-50 border-gray-200"
  }

  /** The scheduled time, or "N/A" when the stop has none. */
  function TimeText(scheduledTime: string): (r: string)
    ensures scheduledTime == "" ==> r == "N/A"
    ensures scheduledTime != "" ==> r == scheduledTime
    ensures r != ""
  {
    if scheduledTime != "" then scheduledTime else "N/A"
  }

  function Row(loc: Option<BusLocation>, stop: Stop, index: nat): (r: StopRow)
    ensures r.name == stop.name && r.state == Classify(loc, stop, index)
    ensures r.badge == Number(index + 1) <==> r.state == Upcoming
    ensures r.badge == Pin <==> r.state == Current
    ensures r.badge == Check <==> r.state == Passed
    ensures r.caption == Caption(r.state) && r.note == Note(r.state) && r.tone == Tone(r.state)
    ensures r.time == TimeText(stop.scheduledTime)
  {
    var state := Classify(loc, stop, index);
    var badge := match state
      case Current => Pin
      case Passed => Check
      case Upcoming => Number(index + 1);
    StopRow(stop.name, state, badge, Caption(state), TimeText(stop.scheduledTime), Note(state), Tone(state))
  }

  /** The stop list: one row per stop, in the order the server returned them. */
  function Rows(stops: seq<Stop>, loc: Option<BusLocation>): (r: seq<StopRow>)
    ensures |r| == |stops|
    ensures forall i :: 0 <= i < |stops| ==> r[i].name == stops[i].name && r[i] == Row(loc, stops[i], i)
  {
    seq(|stops|, i requires 0 <= i < |stops| => Row(loc, stops[i], i))
  }

  /** The status sentence: "on route", "delayed", and "stopped" for every other status. */
  function StatusSentence(status: string): (r: string)
    ensures status == "on_route" ==> r == "on route"
    ensures status == "delayed" ==> r == "delayed"
    ensures status != "on_route" && status != "delayed" ==> r == "stopped"
  {
    if status == "on_route" then "on route"
    else if status == "delayed" then "delayed"
    else "stopped"
  }

  /** The status dot of the dialog, which has no grey default. */
  function StatusDot(status: string): (r: string)
    ensures status == "on_route" ==> r == "bg-green-500 animate-pulse"
    ensures status == "delayed" ==> r == "bg-yellow-500"
    ensures status != "on_route" && status != "delayed" ==> r == "bg-red-500"
  {
    if status == "on_route" then "bg-green-500 animate-pulse"
    else if status == "delayed" then "bg-yellow-500"
    else "bg-red-500"
  }

  // ---------------------------------------------------------------- properties

  /** Without a location record every stop is upcoming and numbered. */
  lemma NoLocationAllUpcoming(stops: seq<Stop>)
    ensures forall i :: 0 <= i < |stops| ==>
      Rows(stops, None)[i].state == Upcoming && Rows(stops, None)[i].caption == "Upcoming" &&
      Rows(stops, None)[i].badge == Number(i + 1)
  {
  }

  /** The rows that read "Passed" are among the first three, whatever the current stop: at most three of them. */
  lemma PassedOnlyAmongFirstThree(stops: seq<Stop>, loc: Option<BusLocation>)
    ensures (set i | 0 <= i < |stops| && Rows(stops, loc)[i].caption == "Passed") <= {0, 1, 2}
  {
  }

  /**
    Away from the current stop, a stop's state depends on the record's presence
    and the stop's index, never on which stop the record names: any two records
    classify it alike, as passed exactly among the first three.
   */
  lemma PassedFlagIgnoresCurrentStop(a: BusLocation, b: BusLocation, stop: Stop, index: nat)
    requires !IsCurrentStop(Some(a), stop) && !IsCurrentStop(Some(b), stop)
    ensures Classify(Some(a), stop, index) == Classify(Some(b), stop, index)
    ensures Classify(Some(a), stop, index) == Passed <==> index < 3
  {
  }

  /** A current stop among the first three still reads "Current location", not "Passed". */
  lemma CurrentBeatsPassed(loc: BusLocation, stops: seq<Stop>, i: nat)
    requires i < |stops| && i < 3
    requires loc.currentStop == Some(stops[i].name)
    ensures Rows(stops, Some(loc))[i].caption == "Current location"
    ensures Rows(stops, Some(loc))[i].note == "Now"
  {
  }

  /**
    With the bus at the fifth stop of a route whose stop names are distinct,
    the first three stops read "Passed", the fourth "Upcoming" and the fifth
    "Current location": the fourth stop, already behind the bus, is not passed.
   */
  lemma FifthStopScenario(loc: BusLocation, stops: seq<Stop>)
    requires |stops| >= 5
    requires forall i, j :: 0 <= i < j < |stops| ==> stops[i].name != stops[j].name
    requires loc.currentStop == Some(stops[4].name)
    ensures forall i :: 0 <= i < 3 ==> Rows(stops, Some(loc))[i].caption == "Passed"
    ensures Rows(stops, Some(loc))[3].caption == "Upcoming"
    ensures Rows(stops, Some(loc))[4].caption == "Current location"
  {
  }

  /**
    With the bus at the second stop, the third stop still reads "Passed":
    the flag runs ahead of the bus.
   */
  lemma PassedAheadOfBus(loc: BusLocation, stops: seq<Stop>)
    requires |stops| >= 3 && stops[1].name != stops[2].name
    requires loc.currentStop == Some(stops[1].name)
    ensures Rows(stops, Some(loc))[1].caption == "Current location"
    ensures Rows(stops, Some(loc))[2].caption == "Passed"
  {
  }

  /** The dialog calls "stopped" exactly the statuses the route card shows as "Stopped" or "Offline". */
  lemma SentenceAgreesWithCard(status: string)
    ensures StatusSentence(status) == "stopped" <==>
      RouteCard.StatusText(Some(status)) in {"Stopped", "Offline"}
    ensures StatusSentence(status) == "on route" <==> RouteCard.StatusText(Some(status)) == "On Route"
  {
  }

  /** The dialog's dot matches the card's for every status but the undocumented ones, which it paints red, not grey. */
  lemma DotAgreesWithCard(status: string)
    ensures RouteCard.KindOf(Some(status)) != RouteCard.Unlisted ==> StatusDot(status) == RouteCard.StatusDot(Some(status))
    ensures RouteCard.KindOf(Some(status)) == RouteCard.Unlisted ==>
      StatusDot(status) == "bg-red-500" && RouteCard.StatusDot(Some(status)) == "bg-gray-400"
  {
  }
}

=== FILE: schema.dfy ===
/**
  Record shapes shared by the server and the client, and the validation the
  server applies to request bodies before they reach the store.

  Request bodies arrive as JSON. Validation only needs to tell, for each
  field, whether it is missing, `null`, a string, or some other JSON value
  (number, boolean, object, array); `Json` records exactly that.
 */
module Schema {
  import opened Wrappers

  /** A reading of the server clock; the model receives it as a parameter. */
  type Time = int

  /** A row of the drivers table; `id` is the numeric primary key, `driverId` the login name. */
  datatype Driver = Driver(
    id: nat, driverId: string, password: string, name: string, routeId: string, isActive: bool)

  /** A row of the routes table; `id` is the primary key. */
  datatype Route = Route(id: string, name: string, description: string, totalStops: int, isActive: bool)

  /** A row of the stops table; `sequence` is the 1-based position on its route. */
  datatype Stop = Stop(id: nat, routeId: string, name: string, scheduledTime: string, sequence: int)

  /** A stop before the store has given it an id. */
  datatype InsertStop = InsertStop(routeId: string, name: string, scheduledTime: string, sequence: int)

  /** The stored location record of one route. Latitude and longitude stay opaque decimal strings. */
  datatype BusLocation = BusLocation(
    id: nat, routeId: string, driverId: string, latitude: string, longitude: string,
    currentStop: Option<string>, status: string, lastUpdated: Time)

  /** A location report as accepted by the insert schema; `None` stands for a missing (or null) field. */
  datatype InsertBusLocation = InsertBusLocation(
    routeId: string, driverId: string, latitude: string, longitude: string,
    currentStop: Option<string>, status: Option<string>)

  datatype LoginCredentials = LoginCredentials(driverId: string, password: string)

  /** One field of a JSON request body, as far as validation distinguishes it. */
  datatype Json = Absent | Null | Str(s: string) | Other

  datatype LoginBody = LoginBody(driverId: Json, password: Json)

  datatype BusLocationBody = BusLocationBody(
    routeId: Json, driverId: Json, latitude: Json, longitude: Json, currentStop: Json, status: Json)

  // ---------------------------------------------------------------- field rules

  /** `z.string().min(1)`: a string of at least one character. */
  function NonEmptyString(j: Json): (r: Option<string>)
    ensures r.Some? <==> j.Str? && j.s != []
    ensures r.Some? ==> r.value == j.s
  {
    match j
    case Str(s) => if |s| >= 1 then Some(s) else None
    case _ => None
  }

  /** A required `notNull` text or decimal column: any string, the empty one included. */
  function RequiredString(j: Json): (r: Option<string>)
    ensures r.Some? <==> j.Str?
    ensures r.Some? ==> r.value == j.s
  {
    match j
    case Str(s) => Some(s)
    case _ => None
  }

  /**
    An optional field. The outer `None` rejects the body; `Some(None)` means
    the field was left out (or, when `nullable`, given as `null`).
   */
  function OptionalString(j: Json, nullable: bool): (r: Option<Option<string>>)
    ensures r == Some(None) <==> j.Absent? || (nullable && j.Null?)
    ensures r.Some? && r.value.Some? <==> j.Str?
    ensures r.Some? && r.value.Some? ==> r.value.value == j.s
    ensures r.None? <==> j.Other? || (!nullable && j.Null?)
  {
    match j
    case Absent => Some(None)
    case Null => if nullable then Some(None) else None
    case Str(s) => Some(Some(s))
    case Other => None
  }

  // ---------------------------------------------------------------- schemas

  /** `loginSchema.parse`: both fields must be non-empty strings. */
  function ParseLogin(b: LoginBody): (r: Option<LoginCredentials>)
    ensures r.Some? <==> b.driverId.Str? && |b.driverId.s| >= 1 && b.password.Str? && |b.password.s| >= 1
    ensures r.Some? ==> r.value == LoginCredentials(b.driverId.s, b.password.s)
  {
    match (NonEmptyString(b.driverId), NonEmptyString(b.password))
    case (Some(d), Some(p)) => Some(LoginCredentials(d, p))
    case _ => None
  }

  /**
    `insertBusLocationSchema.parse`: routeId, driverId, latitude and longitude
    are required strings; currentStop is an optional, nullable string; status is
    an optional (not nullable) free-text string. No other field survives.
   */
  function ParseInsertBusLocation(b: BusLocationBody): (r: Option<InsertBusLocation>)
    ensures r.Some? <==>
      && b.routeId.Str? && b.driverId.Str? && b.latitude.Str? && b.longitude.Str?
      && !b.currentStop.Other?
      && !b.status.Other? && !b.status.Null?
    ensures r.Some? ==>
      && r.value.routeId == b.routeId.s
      && r.value.driverId == b.driverId.s
      && r.value.latitude == b.latitude.s
      && r.value.longitude == b.longitude.s
      && (r.value.currentStop.Some? <==> b.currentStop.Str?)
      && (r.value.currentStop.Some? ==> r.value.currentStop.value == b.currentStop.s)
      && (r.value.status.Some? <==> b.status.Str?)
      && (r.value.status.Some? ==> r.value.status.value == b.status.s)
  {
    match (RequiredString(b.routeId), RequiredString(b.driverId), RequiredString(b.latitude),
           RequiredString(b.longitude), OptionalString(b.currentStop, true), OptionalString(b.status, false))
    case (Some(route), Some(driver), Some(lat), Some(lon), Some(stop), Some(status)) =>
      Some(InsertBusLocation(route, driver, lat, lon, stop, status))
    case _ => None
  }

  // ---------------------------------------------------------------- encoders

  /** The body a client sends for these credentials. */
  function LoginBodyOf(c: LoginCredentials): LoginBody {
    LoginBody(Str(c.driverId), Str(c.password))
  }

  function OptionalJson(o: Option<string>): Json {
    match o
    case Some(s) => Str(s)
    case None => Absent
  }

  /** The body a client sends for this report, leaving out the fields it does not set. */
  function BusLocationBodyOf(x: InsertBusLocation): BusLocationBody {
    BusLocationBody(Str(x.routeId), Str(x.driverId), Str(x.latitude), Str(x.longitude),
                    OptionalJson(x.currentStop), OptionalJson(x.status))
  }

  /** Non-empty credentials survive encoding and validation unchanged. */
  lemma LoginRoundTrip(c: LoginCredentials)
    requires c.driverId != [] && c.password != []
    ensures ParseLogin(LoginBodyOf(c)) == Some(c)
  {
  }

  /** Every report the schema can produce survives encoding and validation unchanged. */
  lemma BusLocationRoundTrip(x: InsertBusLocation)
    ensures ParseInsertBusLocation(BusLocationBodyOf(x)) == Some(x)
  {
  }

  /** An explicit `null` current stop is accepted and reads as a missing one. */
  lemma NullCurrentStopAccepted(x: InsertBusLocation)
    requires x.currentStop.None?
    ensures ParseInsertBusLocation(BusLocationBodyOf(x).(currentStop := Null)) == Some(x)
  {
  }
}

=== FILE: seed_data.dfy ===
/** The static configuration the in-memory store is seeded with at start-up. */
module SeedData {

  datatype RouteSeed = RouteSeed(id: string, name: string, description: string, totalStops: int)

  datatype DriverSeed = DriverSeed(driverId: string, password: string, name: string, routeId: string)

  /** A stop before it is numbered; `time` may be empty (the terminal stop). */
  datatype StopSeed = StopSeed(name: string, time: string)

  const Routes: seq<RouteSeed> := [
    RouteSeed("1", "Route 1", "Prince School", 22),
    RouteSeed("2", "Route 2", "Perungudi", 16),
    RouteSeed("4", "Route 4", "Thiruvottriyur", 28),
    RouteSeed("8", "Route 8", "Pallavaram", 18),
    RouteSeed("10", "Route 10", "Mannivakkam", 23),
    RouteSeed("11", "Route 11", "Chengalpattu", 16),
    RouteSeed("12", "Route 12", "Liberty-Kodambakkam", 26),
    RouteSeed("14", "Route 14", "Kundrathur", 19),
    RouteSeed("15", "Route 15", "Pattabiram", 24),
    RouteSeed("19", "Route 19", "Red Hills", 18)
  ]

  /** The password every seeded driver actually has. */
  const SharedPassword: string := "princedriver123"

  /** The password the start-up comment and the login page advertise. */
  const AdvertisedPassword: string := "driver123"

  const Drivers: seq<DriverSeed> := [
    DriverSeed("1001", SharedPassword, "Route 1 Driver", "1"),
    DriverSeed("1002", SharedPassword, "Route 2 Driver", "2"),
    DriverSeed("1004", SharedPassword, "Route 4 Driver", "4"),
    DriverSeed("1008", SharedPassword, "Route 8 Driver", "8"),
    DriverSeed("1010", SharedPassword, "Route 10 Driver", "10"),
    DriverSeed("1011", SharedPassword, "Route 11 Driver", "11"),
    DriverSeed("1012", SharedPassword, "Route 12 Driver", "12"),
    DriverSeed("1014", SharedPassword, "Route 14 Driver", "14"),
    DriverSeed("1015", SharedPassword, "Route 15 Driver", "15"),
    DriverSeed("1019", SharedPassword, "Route 19 Driver", "19")
  ]

  const Route1Stops: seq<StopSeed> := [
    StopSeed("PRINCE SCHOOL", "7:20"),
    StopSeed("MADIPAKKAM KOOT ROAD", "7:22"),
    StopSeed("MOOVARASAMPET KULAM", "7:24"),
    StopSeed("EZHURAMMAN KOIL", "7:26"),
    StopSeed("JK MAHAL", "7:28"),
    StopSeed("BHUVANESESWARI AMMAN TEMPLE (NANGANALLUR)", "7:30"),
    StopSeed("RENGA THEATRE", "7:32"),
    StopSeed("INDEPENDENCE DAY PARK", "7:34"),
    StopSeed("ROJA MEDICAL SHOP, NANGANALLUR", "7:36"),
    StopSeed("PILLAIYAR TEMPLE, NANGANALLUR", "7:38"),
    StopSeed("KARUMARI AMMAN KOVIL", "7:40"),
    StopSeed("JEYALAKSHMI THEATRE", "7:42"),
    StopSeed("MOUNT RAILWAY STATION", "7:44"),
    StopSeed("NGO COLONY", "7:46"),
    StopSeed("KAKKAN BRIDGE", "7:48"),
    StopSeed("BRINDAVANAM NAGAR", "7:50"),
    StopSeed("PRIME CARE HOSPITAL", "7:52"),
    StopSeed("PUZHUTHIVAKKAM POLICE BOOTH", "7:54"),
    StopSeed("PALLIKARANAI POLICE BOOTH", "8:15"),
    StopSeed("PALLIKARANAI OIL MILL", "8:20"),
    StopSeed("MEDAVAKKAM VIJAYANAGARAM", "8:25"),
    StopSeed("COLLEGE", "")
  ]

  const Route2Stops: seq<StopSeed> := [
    StopSeed("SRP TOOLS", "7:30"),
    StopSeed("PERUNGUDI", "7:33"),
    StopSeed("KANTHANCHAVADI POORVIKA MOBILES", "7:35"),
    StopSeed("TARAMANI", "7:40"),
    StopSeed("TCS", "7:43"),
    StopSeed("BABY NAGAR", "7:45"),
    StopSeed("TANSI NAGAR", "7:48"),
    StopSeed("VELACHERY VIJAYANAGAR BUS STOP", "7:53"),
    StopSeed("A2B - 200 FEET RADIAL ROAD", "8:05"),
    // the name holds the three characters U+00E2 U+20AC U+201C between "HOTEL" and "VINAYAGAPURAM"
    StopSeed("ZONE HOTEL \U{00E2}\U{20AC}\U{201C} VINAYAGAPURAM (S KOLATHUR)", "8:10"),
    StopSeed("RANI MAHAL", "8:13"),
    StopSeed("VEERAMANI NAGAR", "8:15"),
    StopSeed("VADAKUPATTU", "8:18"),
    StopSeed("VELLAKAL", "8:20"),
    StopSeed("BHEL NAGAR (Sri Baktha Anjaneya Temple)", "8:25"),
    StopSeed("COLLEGE", "")
  ]

  /** Stop lists by route id, in the order the seeding enumerates them. */
  const StopLists: seq<(string, seq<StopSeed>)> := [("1", Route1Stops), ("2", Route2Stops)]
}

=== FILE: storage.dfy ===
/**
  The in-memory store behind the server: four insertion-ordered maps and
  three id counters. Every operation is a pure transition from one store
  value to the next; the clock reading is passed in.
 */
module Storage {
  import opened Wrappers
  import opened OrderedMap
  import opened Schema
  import SeedData

  datatype Store = Store(
    drivers: OMap<nat, Driver>,            // keyed by the numeric id
    routes: OMap<string, Route>,           // keyed by route id
    stops: OMap<string, seq<Stop>>,        // stop list of each route, keyed by route id
    busLocations: OMap<string, BusLocation>, // at most one record per route id
    nextDriverId: nat,
    nextStopId: nat,
    nextLocationId: nat)

  /** The store after an operation, and what the operation returned. */
  datatype Step<T> = Step(store: Store, value: T)

  // ---------------------------------------------------------------- invariant

  /** A stop list filed under `routeId`: its stops belong to that route, ids ascend and were handed out. */
  predicate StopListOk(routeId: string, list: seq<Stop>, nextStopId: nat) {
    && (forall i :: 0 <= i < |list| ==> list[i].routeId == routeId && list[i].id < nextStopId)
    && (forall i, j :: 0 <= i < j < |list| ==> list[i].id < list[j].id)
  }

  /** Drivers are filed under their numeric id, issued ids stay below the counter, login names are unique. */
  predicate DriversOk(drivers: OMap<nat, Driver>, nextDriverId: nat, routeIds: set<string>) {
    && (forall i :: 0 <= i < |drivers| ==> drivers[i].key == drivers[i].value.id < nextDriverId)
    && (forall i, j :: 0 <= i < j < |drivers| ==> drivers[i].value.driverId != drivers[j].value.driverId)
    && (forall i :: 0 <= i < |drivers| ==> drivers[i].value.routeId in routeIds)
  }

  predicate RoutesOk(routes: seq<Entry<string, Route>>) {
    forall i :: 0 <= i < |routes| ==> routes[i].key == routes[i].value.id
  }

  predicate StopsOk(stops: OMap<string, seq<Stop>>, nextStopId: nat) {
    forall i :: 0 <= i < |stops| ==> StopListOk(stops[i].key, stops[i].value, nextStopId)
  }

  /** Each record is filed under its own route id and its id was issued by the counter. */
  predicate LocationsOk(locations: OMap<string, BusLocation>, nextLocationId: nat) {
    forall i :: 0 <= i < |locations| ==>
      locations[i].key == locations[i].value.routeId && locations[i].value.id < nextLocationId
  }

  /**
    What the store keeps true: records are filed under their own keys, ids stay
    below the counters that issued them, login names are unique, and every
    driver is assigned to a known route.
   */
  predicate Valid(s: Store)
    // the id the driver counter hands out next is unused
    ensures Valid(s) ==> s.nextDriverId !in Keys(s.drivers)
  {
    && DriversOk(s.drivers, s.nextDriverId, Keys(s.routes))
    && RoutesOk(s.routes)
    && StopsOk(s.stops, s.nextStopId)
    && LocationsOk(s.busLocations, s.nextLocationId)
  }

  /** Under the invariant no stored stop or location record carries the id its counter issues next. */
  lemma CountersIssueFreshIds(s: Store)
    requires Valid(s)
    ensures forall i, j :: 0 <= i < |s.stops| && 0 <= j < |s.stops[i].value| ==> s.stops[i].value[j].id != s.nextStopId
    ensures forall i :: 0 <= i < |s.busLocations| ==> s.busLocations[i].value.id != s.nextLocationId
  {
  }

  // ---------------------------------------------------------------- drivers


  /** Position of the first driver, in iteration order, with this login name. */
  function FindDriver(m: seq<Entry<nat, Driver>>, driverId: string): (r: Option<nat>)
    ensures r.Some? ==> r.value < |m| && m[r.value].value.driverId == driverId
    ensures r.Some? ==> forall j :: 0 <= j < r.value ==> m[j].value.driverId != driverId
    ensures r.None? ==> forall j :: 0 <= j < |m| ==> m[j].value.driverId != driverId
  {
    if |m| == 0 then None
    else if m[0].value.driverId == driverId then Some(0)
    else match FindDriver(m[1..], driverId)
      case Some(i) => Some(i + 1)
      case None => None
  }

  /** `getDriverByDriverId`. */
  function GetDriverByDriverId(s: Store, driverId: string): (r: Option<Driver>)
    ensures r.None? <==> forall i :: 0 <= i < |s.drivers| ==> s.drivers[i].value.driverId != driverId
    ensures r.Some? ==> r.value.driverId == driverId && r.value in Values(s.drivers)
    ensures Valid(s) ==>
      forall i :: 0 <= i < |s.drivers| && s.drivers[i].value.driverId == driverId ==> r == Some(s.drivers[i].value)
  {
    match FindDriver(s.drivers, driverId)
    case Some(i) => Some(s.drivers[i].value)
    case None => None
  }

  /**
    `updateDriverStatus`: sets `isActive` of the driver with this login name and
    returns it; an unknown login name changes nothing and returns nothing.
   */
  function UpdateDriverStatus(s: Store, driverId: string, isActive: bool): (r: Step<Option<Driver>>)
    ensures r.value.None? <==> GetDriverByDriverId(s, driverId).None?
    ensures r.value.None? ==> r.store == s
    ensures r.value.Some? ==> r.value.value == GetDriverByDriverId(s, driverId).value.(isActive := isActive)
    ensures r.store == s.(drivers := r.store.drivers)
  {
    match FindDriver(s.drivers, driverId)
    case None => Step(s, None)
    case Some(k) =>
      var d := s.drivers[k].value;
      var d' := d.(isActive := isActive);
      Step(s.(drivers := Set(s.drivers, d.id, d')), Some(d'))
  }

  /** Only the matching driver's flag changes; every entry keeps its place, and the invariant survives. */
  lemma UpdateDriverStatusInPlace(s: Store, driverId: string, isActive: bool)
    requires Valid(s)
    ensures Valid(UpdateDriverStatus(s, driverId, isActive).store)
    ensures var m := UpdateDriverStatus(s, driverId, isActive).store.drivers;
      && |m| == |s.drivers|
      && forall i :: 0 <= i < |s.drivers| ==>
           m[i] == (if s.drivers[i].value.driverId == driverId
                    then Entry(s.drivers[i].key, s.drivers[i].value.(isActive := isActive))
                    else s.drivers[i])
  {
    match FindDriver(s.drivers, driverId)
    case None =>
    case Some(k) =>
      DriverUpdateInPlace(s.drivers, s.nextDriverId, Keys(s.routes), k, isActive);
  }

  /** Read back by login name, the driver is what the update returned. */
  lemma UpdateDriverStatusReadBack(s: Store, driverId: string, isActive: bool)
    requires Valid(s)
    ensures GetDriverByDriverId(UpdateDriverStatus(s, driverId, isActive).store, driverId) ==
            UpdateDriverStatus(s, driverId, isActive).value
  {
    UpdateDriverStatusInPlace(s, driverId, isActive);
    ToggledSearch(s.drivers, UpdateDriverStatus(s, driverId, isActive).store.drivers, driverId, isActive);
  }

  /** Every other login name reads as before the update. */
  lemma UpdateDriverStatusLeavesOthers(s: Store, driverId: string, isActive: bool)
    requires Valid(s)
    ensures forall id :: id != driverId ==>
      GetDriverByDriverId(UpdateDriverStatus(s, driverId, isActive).store, id) == GetDriverByDriverId(s, id)
  {
    UpdateDriverStatusInPlace(s, driverId, isActive);
    ToggledSearch(s.drivers, UpdateDriverStatus(s, driverId, isActive).store.drivers, driverId, isActive);
  }

  /** Setting the flag of the drivers with one login name moves no driver: every search finds the same place. */
  lemma ToggledSearch(a: seq<Entry<nat, Driver>>, b: seq<Entry<nat, Driver>>, driverId: string, isActive: bool)
    requires |a| == |b|
    requires forall i :: 0 <= i < |a| ==>
      b[i] == (if a[i].value.driverId == driverId then Entry(a[i].key, a[i].value.(isActive := isActive)) else a[i])
    ensures forall id :: FindDriver(b, id) == FindDriver(a, id)
    ensures forall id, j :: FindDriver(a, id) == Some(j) ==>
      b[j].value == (if id == driverId then a[j].value.(isActive := isActive) else a[j].value)
  {
    forall id ensures FindDriver(b, id) == FindDriver(a, id) {
      SameNamesSameSearch(a, b, id);
    }
  }

  lemma {:induction false} SameNamesSameSearch(a: seq<Entry<nat, Driver>>, b: seq<Entry<nat, Driver>>, driverId: string)
    requires |a| == |b| && forall i :: 0 <= i < |a| ==> a[i].value.driverId == b[i].value.driverId
    ensures FindDriver(a, driverId) == FindDriver(b, driverId)
  {
    if |a| > 0 && a[0].value.driverId != driverId {
      SameNamesSameSearch(a[1..], b[1..], driverId);
    }
  }

  /** Under the invariant, re-filing the `k`-th driver under its own id touches only its entry. */
  lemma DriverUpdateInPlace(drivers: OMap<nat, Driver>, next: nat, routeIds: set<string>, k: nat, isActive: bool)
    requires k < |drivers|
    ensures var d := drivers[k].value;
      var m := Set(drivers, d.id, d.(isActive := isActive));
      DriversOk(drivers, next, routeIds) ==>
        && DriversOk(m, next, routeIds)
        && |m| == |drivers|
        && forall i :: 0 <= i < |drivers| ==>
             m[i] == (if drivers[i].value.driverId == d.driverId
                      then Entry(drivers[i].key, drivers[i].value.(isActive := isActive))
                      else drivers[i])
  {
    var d := drivers[k].value;
    var m := Set(drivers, d.id, d.(isActive := isActive));
    if DriversOk(drivers, next, routeIds) {
      assert d.id in Keys(drivers);
      forall i | 0 <= i < |drivers|
        ensures m[i] == (if drivers[i].value.driverId == d.driverId
                         then Entry(drivers[i].key, drivers[i].value.(isActive := isActive))
                         else drivers[i])
      {
        if i != k {
          assert drivers[i].value.driverId != d.driverId;
          assert drivers[i].key != d.id;
        }
      }
    }
  }

  // ---------------------------------------------------------------- routes and stops

  /** `getRoute`. */
  function GetRoute(s: Store, id: string): (r: Option<Route>)
    ensures r.Some? <==> id in Keys(s.routes)
    ensures Valid(s) && r.Some? ==> r.value.id == id
    ensures forall i :: 0 <= i < |s.routes| && s.routes[i].key == id ==> r == Some(s.routes[i].value)
  {
    Get(s.routes, id)
  }

  /** `getAllRoutes`: every route once, in seeding order. */
  function GetAllRoutes(s: Store): (r: seq<Route>)
    ensures |r| == |s.routes|
    ensures forall i :: 0 <= i < |r| ==> GetRoute(s, s.routes[i].key) == Some(r[i])
    ensures forall id :: GetRoute(s, id).Some? ==> GetRoute(s, id).value in r
  {
    var r := Values(s.routes);
    assert forall id :: GetRoute(s, id).Some? ==> GetRoute(s, id).value in r by {
      forall id | GetRoute(s, id).Some? ensures GetRoute(s, id).value in r {
        var i :| 0 <= i < |s.routes| && s.routes[i].key == id;
        assert r[i] == GetRoute(s, id).value;
      }
    }
    r
  }

  /** `getStopsByRoute`: the route's stop list, or the empty list when it has none. */
  function GetStopsByRoute(s: Store, routeId: string): (r: seq<Stop>)
    ensures routeId !in Keys(s.stops) ==> r == []
    ensures routeId in Keys(s.stops) ==> Get(s.stops, routeId) == Some(r)
    ensures Valid(s) ==> forall i :: 0 <= i < |r| ==> r[i].routeId == routeId && r[i].id < s.nextStopId
  {
    Get(s.stops, routeId).GetOr([])
  }

  /** `createStop`: numbers the stop and appends it to its route's list. */
  function CreateStop(s: Store, x: InsertStop): (r: Step<Stop>)
    ensures r.value == Stop(s.nextStopId, x.routeId, x.name, x.scheduledTime, x.sequence)
    ensures GetStopsByRoute(r.store, x.routeId) == GetStopsByRoute(s, x.routeId) + [r.value]
    ensures forall id :: id != x.routeId ==> GetStopsByRoute(r.store, id) == GetStopsByRoute(s, id)
    ensures r.store.nextStopId == s.nextStopId + 1
    ensures r.store == s.(stops := r.store.stops, nextStopId := r.store.nextStopId)
  {
    var stop := Stop(s.nextStopId, x.routeId, x.name, x.scheduledTime, x.sequence);
    Step(s.(stops := Set(s.stops, x.routeId, GetStopsByRoute(s, x.routeId) + [stop]),
            nextStopId := s.nextStopId + 1), stop)
  }

  /** The list a route's stops read as is well formed under the invariant. */
  lemma StoredStopListOk(s: Store, routeId: string)
    requires Valid(s)
    ensures StopListOk(routeId, GetStopsByRoute(s, routeId), s.nextStopId)
  {
    if routeId in Keys(s.stops) {
      var j :| 0 <= j < |s.stops| && s.stops[j].key == routeId;
      assert StopListOk(routeId, s.stops[j].value, s.nextStopId);
    }
  }

  lemma StopListOkLater(routeId: string, list: seq<Stop>, next: nat)
    requires StopListOk(routeId, list, next)
    ensures StopListOk(routeId, list, next + 1)
  {
  }

  lemma StopListGrows(routeId: string, list: seq<Stop>, next: nat, stop: Stop)
    requires StopListOk(routeId, list, next)
    requires stop.id == next && stop.routeId == routeId
    ensures StopListOk(routeId, list + [stop], next + 1)
  {
  }

  /** The new stop's id is above every id handed out before, so each list stays in ascending id order. */
  lemma CreateStopKeepsValid(s: Store, x: InsertStop)
    requires Valid(s)
    ensures forall id, i :: 0 <= i < |GetStopsByRoute(s, id)| ==>
      GetStopsByRoute(s, id)[i].id < CreateStop(s, x).value.id
    ensures Valid(CreateStop(s, x).store)
  {
    var r := CreateStop(s, x);
    var s' := r.store;
    forall i | 0 <= i < |s'.stops| ensures StopListOk(s'.stops[i].key, s'.stops[i].value, s'.nextStopId) {
      var k := s'.stops[i].key;
      assert Get(s'.stops, k) == Some(s'.stops[i].value);
      StoredStopListOk(s, k);
      if k == x.routeId {
        StopListGrows(k, GetStopsByRoute(s, k), s.nextStopId, r.value);
      } else {
        StopListOkLater(k, GetStopsByRoute(s, k), s.nextStopId);
      }
    }
  }

  // ---------------------------------------------------------------- bus locations

  /** `getBusLocationByRoute`. */
  function GetBusLocationByRoute(s: Store, routeId: string): (r: Option<BusLocation>)
    ensures r.Some? <==> routeId in Keys(s.busLocations)
    ensures Valid(s) && r.Some? ==> r.value.routeId == routeId
    ensures forall i :: 0 <= i < |s.busLocations| && s.busLocations[i].key == routeId ==> r == Some(s.busLocations[i].value)
  {
    Get(s.busLocations, routeId)
  }

  /** `getAllBusLocations`: every stored record once, in insertion order. */
  function GetAllBusLocations(s: Store): (r: seq<BusLocation>)
    ensures |r| == |s.busLocations|
    ensures forall i :: 0 <= i < |r| ==> GetBusLocationByRoute(s, s.busLocations[i].key) == Some(r[i])
    ensures forall id :: GetBusLocationByRoute(s, id).Some? ==> GetBusLocationByRoute(s, id).value in r
  {
    var r := Values(s.busLocations);
    assert forall id :: GetBusLocationByRoute(s, id).Some? ==> GetBusLocationByRoute(s, id).value in r by {
      forall id | GetBusLocationByRoute(s, id).Some? ensures GetBusLocationByRoute(s, id).value in r {
        var i :| 0 <= i < |s.busLocations| && s.busLocations[i].key == id;
        assert r[i] == GetBusLocationByRoute(s, id).value;
      }
    }
    r
  }

  /** The stored status: a missing or empty one becomes `"on_route"`. */
  function StatusOrDefault(status: Option<string>): (r: string)
    ensures status.None? || status == Some("") ==> r == "on_route"
    ensures status.Some? && status.value != "" ==> r == status.value
    ensures r != ""
  {
    if status.Some? && status.value != "" then status.value else "on_route"
  }

  /** The stored current stop: a missing or empty one becomes `null`. */
  function CurrentStopOrNull(stop: Option<string>): (r: Option<string>)
    ensures stop.None? || stop == Some("") ==> r.None?
    ensures stop.Some? && stop.value != "" ==> r == stop
  {
    if stop.Some? && stop.value != "" then stop else None
  }

  /**
    `updateBusLocation`: builds a fresh record with the next location id and the
    current time and files it under its route, replacing any earlier record for
    that route entirely.
   */
  function UpdateBusLocation(s: Store, x: InsertBusLocation, now: Time): (r: Step<BusLocation>)
    ensures r.value.id == s.nextLocationId && r.store.nextLocationId == s.nextLocationId + 1
    ensures r.value.routeId == x.routeId && r.value.driverId == x.driverId
    ensures r.value.latitude == x.latitude && r.value.longitude == x.longitude
    ensures r.value.status == StatusOrDefault(x.status)
    ensures r.value.currentStop == CurrentStopOrNull(x.currentStop)
    ensures r.value.lastUpdated == now
    ensures GetBusLocationByRoute(r.store, x.routeId) == Some(r.value)
    ensures forall id :: id != x.routeId ==> GetBusLocationByRoute(r.store, id) == GetBusLocationByRoute(s, id)
    ensures r.store == s.(busLocations := r.store.busLocations, nextLocationId := r.store.nextLocationId)
    // a route that already has a record keeps its place in the listing; a new one goes last
    ensures x.routeId in Keys(s.busLocations) ==>
      && |r.store.busLocations| == |s.busLocations|
      && forall i :: 0 <= i < |s.busLocations| ==>
        r.store.busLocations[i] == (if s.busLocations[i].key == x.routeId then Entry(x.routeId, r.value) else s.busLocations[i])
    ensures x.routeId !in Keys(s.busLocations) ==> r.store.busLocations == s.busLocations + [Entry(x.routeId, r.value)]
  {
    var loc := BusLocation(s.nextLocationId, x.routeId, x.driverId, x.latitude, x.longitude,
                           CurrentStopOrNull(x.currentStop), StatusOrDefault(x.status), now);
    Step(s.(busLocations := Set(s.busLocations, x.routeId, loc), nextLocationId := s.nextLocationId + 1), loc)
  }

  /** The new record's id is above the id of every record still stored, and the invariant survives. */
  lemma UpdateBusLocationKeepsValid(s: Store, x: InsertBusLocation, now: Time)
    requires Valid(s)
    ensures forall loc :: loc in GetAllBusLocations(s) ==> loc.id < UpdateBusLocation(s, x, now).value.id
    ensures Valid(UpdateBusLocation(s, x, now).store)
  {
    var s' := UpdateBusLocation(s, x, now).store;
    forall i | 0 <= i < |s'.busLocations|
      ensures s'.busLocations[i].key == s'.busLocations[i].value.routeId
      ensures s'.busLocations[i].value.id < s'.nextLocationId
    {
      var k := s'.busLocations[i].key;
      assert Get(s'.busLocations, k) == Some(s'.busLocations[i].value);
      if k != x.routeId {
        var j :| 0 <= j < |s.busLocations| && s.busLocations[j].key == k;
      }
    }
  }

  /** `deleteBusLocation`: removes the record filed under `routeId`, if any. */
  function DeleteBusLocation(s: Store, routeId: string): (r: Store)
    ensures GetBusLocationByRoute(r, routeId).None?
    ensures forall id :: id != routeId ==> GetBusLocationByRoute(r, id) == GetBusLocationByRoute(s, id)
    ensures GetBusLocationByRoute(s, routeId).None? ==> r == s
    ensures r == s.(busLocations := r.busLocations)
    // the remaining records keep their order
    ensures routeId in Keys(s.busLocations) ==>
      exists i :: 0 <= i < |s.busLocations| && s.busLocations[i].key == routeId &&
                  r.busLocations == s.busLocations[..i] + s.busLocations[i + 1..]
  {
    s.(busLocations := Delete(s.busLocations, routeId))
  }

  lemma DeleteBusLocationKeepsValid(s: Store, routeId: string)
    requires Valid(s)
    ensures Valid(DeleteBusLocation(s, routeId))
  {
    var r := DeleteBusLocation(s, routeId);
    forall i | 0 <= i < |r.busLocations|
      ensures r.busLocations[i].key == r.busLocations[i].value.routeId
      ensures r.busLocations[i].value.id < r.nextLocationId
    {
      var k := r.busLocations[i].key;
      assert Get(r.busLocations, k) == Some(r.busLocations[i].value);
      var j :| 0 <= j < |s.busLocations| && s.busLocations[j].key == k;
    }
  }

  /** Deleting twice is deleting once. */
  lemma DeleteBusLocationIdempotent(s: Store, routeId: string)
    ensures DeleteBusLocation(DeleteBusLocation(s, routeId), routeId) == DeleteBusLocation(s, routeId)
  {
  }

  /** In a valid store every listed record is the one served for its route. */
  lemma ListedRecordIsServed(s: Store, loc: BusLocation)
    requires Valid(s)
    requires loc in GetAllBusLocations(s)
    ensures GetBusLocationByRoute(s, loc.routeId) == Some(loc)
  {
    var all := GetAllBusLocations(s);
    var i :| 0 <= i < |all| && all[i] == loc;
    assert GetBusLocationByRoute(s, s.busLocations[i].key) == Some(loc);
  }

  /** In a valid store no two listed records belong to the same route. */
  lemma AtMostOneRecordPerRoute(s: Store)
    requires Valid(s)
    ensures forall i, j :: 0 <= i < j < |GetAllBusLocations(s)| ==>
      GetAllBusLocations(s)[i].routeId != GetAllBusLocations(s)[j].routeId
  {
    var all := GetAllBusLocations(s);
    forall i, j | 0 <= i < j < |all| ensures all[i].routeId != all[j].routeId {
      assert Get(s.busLocations, s.busLocations[i].key) == Some(all[i]);
      assert Get(s.busLocations, s.busLocations[j].key) == Some(all[j]);
    }
  }

  // ---------------------------------------------------------------- seeding

  function RouteOf(x: SeedData.RouteSeed): Route {
    Route(x.id, x.name, x.description, x.totalStops, true)
  }

  /** Seeds every route, active, under its own id. */
  function AddRoutes(m: OMap<string, Route>, data: seq<SeedData.RouteSeed>): (r: OMap<string, Route>)
    ensures Keys(r) == Keys(m) + RouteIds(data)
    decreases |data|
  {
    if |data| == 0 then m
    else
      RouteIdsCons(data);
      AddRoutes(Set(m, data[0].id, RouteOf(data[0])), data[1..])
  }

  lemma RouteIdsCons(data: seq<SeedData.RouteSeed>)
    requires |data| > 0
    ensures RouteIds(data) == {data[0].id} + RouteIds(data[1..])
  {
    forall k | k in RouteIds(data) ensures k in {data[0].id} + RouteIds(data[1..]) {
      var j :| 0 <= j < |data| && data[j].id == k;
      if j > 0 {
        assert data[1..][j - 1].id == k;
      }
    }
    forall k | k in RouteIds(data[1..]) ensures k in RouteIds(data) {
      var j :| 0 <= j < |data[1..]| && data[1..][j].id == k;
      assert data[j + 1].id == k;
    }
  }

  function DriverOf(id: nat, x: SeedData.DriverSeed): Driver {
    Driver(id, x.driverId, x.password, x.name, x.routeId, false)
  }

  /** Seeds every driver, inactive, under the next numeric id; returns the advanced counter. */
  function AddDrivers(m: OMap<nat, Driver>, next: nat, data: seq<SeedData.DriverSeed>): (r: (OMap<nat, Driver>, nat))
    ensures r.1 == next + |data|
    ensures forall k: nat :: k < next ==> Get(r.0, k) == Get(m, k)
    ensures forall k: nat :: k in Keys(r.0) ==> k in Keys(m) || next <= k < next + |data|
    decreases |data|
  {
    if |data| == 0 then (m, next)
    else AddDrivers(Set(m, next, DriverOf(next, data[0])), next + 1, data[1..])
  }

  /** Numbers one route's stops: consecutive ids from `firstId`, sequence = position + 1. */
  function NumberStops(routeId: string, data: seq<SeedData.StopSeed>, firstId: nat): (r: seq<Stop>)
    ensures |r| == |data|
    ensures StopListOk(routeId, r, firstId + |data|)
    ensures forall i :: 0 <= i < |r| ==> r[i].id >= firstId && r[i].sequence == i + 1
    ensures forall i :: 0 <= i < |r| ==> r[i].name == data[i].name && r[i].scheduledTime == data[i].time
  {
    seq(|data|, i requires 0 <= i < |data| => Stop(firstId + i, routeId, data[i].name, data[i].time, i + 1))
  }

  /** Seeds the stop list of every configured route, numbering stops from `next` on. */
  function AddStops(m: OMap<string, seq<Stop>>, next: nat, lists: seq<(string, seq<SeedData.StopSeed>)>)
    : (r: OMap<string, seq<Stop>>)
    ensures Keys(r) == Keys(m) + ListIds(lists)
    decreases |lists|
  {
    if |lists| == 0 then m
    else
      ListIdsCons(lists);
      AddStops(Set(m, lists[0].0, NumberStops(lists[0].0, lists[0].1, next)), next + |lists[0].1|, lists[1..])
  }

  function ListIds(lists: seq<(string, seq<SeedData.StopSeed>)>): set<string> {
    set j | 0 <= j < |lists| :: lists[j].0
  }

  lemma ListIdsCons(lists: seq<(string, seq<SeedData.StopSeed>)>)
    requires |lists| > 0
    ensures ListIds(lists) == {lists[0].0} + ListIds(lists[1..])
  {
    forall k | k in ListIds(lists) ensures k in {lists[0].0} + ListIds(lists[1..]) {
      var j :| 0 <= j < |lists| && lists[j].0 == k;
      if j > 0 {
        assert lists[1..][j - 1].0 == k;
      }
    }
    forall k | k in ListIds(lists[1..]) ensures k in ListIds(lists) {
      var j :| 0 <= j < |lists[1..]| && lists[1..][j].0 == k;
      assert lists[j + 1].0 == k;
    }
  }

  /** The store as the constructor leaves it: routes, then drivers, then stops; no bus locations. */
  function Seed(routes: seq<SeedData.RouteSeed>, drivers: seq<SeedData.DriverSeed>,
                lists: seq<(string, seq<SeedData.StopSeed>)>): (r: Store)
    ensures Keys(r.routes) == RouteIds(routes)
    ensures forall k: nat :: k in Keys(r.drivers) ==> 1 <= k <= |drivers|
    ensures Keys(r.stops) == ListIds(lists)
    ensures r.nextDriverId == 1 + |drivers| && r.nextStopId == 1 + StopCount(lists)
    ensures r.busLocations == [] && r.nextLocationId == 1
  {
    var routeMap := AddRoutes([], routes);
    var driverMap := AddDrivers([], 1, drivers);
    // the stop counter advances once per seeded stop
    Store(driverMap.0, routeMap, AddStops([], 1, lists), [], driverMap.1, 1 + StopCount(lists), 1)
  }

  /**
    The store every run starts from, written out entry by entry; the lemma
    `InitialStoreIsSeeded` shows it is what seeding the shipped configuration yields.
   */
  function InitialStore(): (r: Store)
    ensures RoutesOk(r.routes)
    ensures r.busLocations == [] && r.nextLocationId == 1
  {
    RouteEntriesKeys(SeedData.Routes);
    Store(InitialDrivers(), InitialRoutes(), InitialStops(), [],
          1 + |SeedData.Drivers|, 1 + StopCount(SeedData.StopLists), 1)
  }

  /** The seeded drivers, numbered from 1 in configuration order. */
  function InitialDrivers(): OMap<nat, Driver> {
    DriverEntriesDistinct(1, SeedData.Drivers);
    DriverEntries(1, SeedData.Drivers)
  }

  /** The seeded routes, in configuration order. */
  function InitialRoutes(): OMap<string, Route> {
    ShippedRouteKeysDistinct();
    RouteEntries(SeedData.Routes)
  }

  /** The seeded stop lists, numbered from stop id 1 on. */
  function InitialStops(): OMap<string, seq<Stop>> {
    ShippedStopKeysDistinct();
    StopEntries(1, SeedData.StopLists)
  }

  /** Every stop of every route, in iteration order. */
  function AllStops(m: seq<Entry<string, seq<Stop>>>): seq<Stop>
    decreases |m|
  {
    if |m| == 0 then [] else m[0].value + AllStops(m[1..])
  }

  // ---------------------------------------------------------------- seeding lemmas

  /** One entry per configured route, in configuration order. */
  function RouteEntries(data: seq<SeedData.RouteSeed>): (r: seq<Entry<string, Route>>)
    decreases |data|
    ensures |r| == |data|
    ensures forall i :: 0 <= i < |data| ==> r[i] == Entry(data[i].id, RouteOf(data[i]))
  {
    if |data| == 0 then [] else [Entry(data[0].id, RouteOf(data[0]))] + RouteEntries(data[1..])
  }

  /** One entry per configured driver, numbered consecutively from `next`. */
  function DriverEntries(next: nat, data: seq<SeedData.DriverSeed>): (r: seq<Entry<nat, Driver>>)
    decreases |data|
    ensures |r| == |data|
    ensures forall i :: 0 <= i < |data| ==> r[i] == Entry(next + i, DriverOf(next + i, data[i]))
  {
    if |data| == 0 then [] else [Entry(next, DriverOf(next, data[0]))] + DriverEntries(next + 1, data[1..])
  }

  /** Number of configured stops over all lists. */
  function StopCount(lists: seq<(string, seq<SeedData.StopSeed>)>): nat
    decreases |lists|
  {
    if |lists| == 0 then 0 else |lists[0].1| + StopCount(lists[1..])
  }

  /** One numbered stop list per configured route; ids continue from list to list. */
  function StopEntries(next: nat, lists: seq<(string, seq<SeedData.StopSeed>)>): (r: seq<Entry<string, seq<Stop>>>)
    decreases |lists|
    ensures |r| == |lists|
    ensures forall i :: 0 <= i < |lists| ==> r[i].key == lists[i].0
  {
    if |lists| == 0 then []
    else [Entry(lists[0].0, NumberStops(lists[0].0, lists[0].1, next))] + StopEntries(next + |lists[0].1|, lists[1..])
  }

  lemma AppendAssociates<T>(a: seq<T>, b: seq<T>, c: seq<T>)
    ensures a + (b + c) == (a + b) + c
  {
  }

  /** Seeding routes with distinct, new ids appends one entry per route, in order. */
  lemma {:induction false} AddRoutesAppends(m: OMap<string, Route>, data: seq<SeedData.RouteSeed>)
    requires forall i, j :: 0 <= i < j < |data| ==> data[i].id != data[j].id
    requires forall i :: 0 <= i < |data| ==> data[i].id !in Keys(m)
    ensures AddRoutes(m, data) == m + RouteEntries(data)
    decreases |data|
  {
    if |data| > 0 {
      var e := Entry(data[0].id, RouteOf(data[0]));
      var m1 := Set(m, data[0].id, RouteOf(data[0]));
      SetNewKey(m, data[0].id, RouteOf(data[0]));
      var rest := data[1..];
      assert forall i :: 0 <= i < |rest| ==> rest[i].id !in Keys(m1) by {
        forall i | 0 <= i < |rest| ensures rest[i].id !in Keys(m1) {
          assert rest[i] == data[i + 1];
        }
      }
      AddRoutesAppends(m1, rest);
      assert AddRoutes(m, data) == AddRoutes(m1, rest);
      assert RouteEntries(data) == [e] + RouteEntries(rest);
      AppendAssociates(m, [e], RouteEntries(rest));
    } else {
      assert m + RouteEntries(data) == m;
    }
  }

  /** Seeding drivers under ids above every present key appends them with consecutive ids. */
  lemma {:induction false} AddDriversAppends(m: OMap<nat, Driver>, next: nat, data: seq<SeedData.DriverSeed>)
    requires forall k :: k in Keys(m) ==> k < next
    ensures AddDrivers(m, next, data).0 == m + DriverEntries(next, data)
    ensures AddDrivers(m, next, data).1 == next + |data|
    decreases |data|
  {
    if |data| > 0 {
      var e := Entry(next, DriverOf(next, data[0]));
      var m1 := Set(m, next, DriverOf(next, data[0]));
      SetNewKey(m, next, DriverOf(next, data[0]));
      AddDriversAppends(m1, next + 1, data[1..]);
      assert AddDrivers(m, next, data).0 == AddDrivers(m1, next + 1, data[1..]).0;
      assert AddDrivers(m, next, data).1 == AddDrivers(m1, next + 1, data[1..]).1;
      assert DriverEntries(next, data) == [e] + DriverEntries(next + 1, data[1..]);
      AppendAssociates(m, [e], DriverEntries(next + 1, data[1..]));
    } else {
      assert m + DriverEntries(next, data) == m;
    }
  }

  /** Seeding stop lists for distinct, new route ids appends one numbered list per route. */
  lemma {:induction false} AddStopsAppends(
    m: OMap<string, seq<Stop>>, next: nat, lists: seq<(string, seq<SeedData.StopSeed>)>)
    requires forall i, j :: 0 <= i < j < |lists| ==> lists[i].0 != lists[j].0
    requires forall i :: 0 <= i < |lists| ==> lists[i].0 !in Keys(m)
    ensures AddStops(m, next, lists) == m + StopEntries(next, lists)
    decreases |lists|
  {
    if |lists| > 0 {
      var e := Entry(lists[0].0, NumberStops(lists[0].0, lists[0].1, next));
      var m1 := Set(m, lists[0].0, e.value);
      SetNewKey(m, lists[0].0, e.value);
      var rest := lists[1..];
      assert forall i :: 0 <= i < |rest| ==> rest[i].0 !in Keys(m1) by {
        forall i | 0 <= i < |rest| ensures rest[i].0 !in Keys(m1) {
          assert rest[i] == lists[i + 1];
        }
      }
      AddStopsAppends(m1, next + |lists[0].1|, rest);
      assert AddStops(m, next, lists) == AddStops(m1, next + |lists[0].1|, rest);
      assert StopEntries(next, lists) == [e] + StopEntries(next + |lists[0].1|, rest);
      AppendAssociates(m, [e], StopEntries(next + |lists[0].1|, rest));
    } else {
      assert m + StopEntries(next, lists) == m;
    }
  }

  /** The seeded stops, concatenated in iteration order, carry the ids next, next + 1, ... */
  lemma {:induction false} StopEntriesNumbered(next: nat, lists: seq<(string, seq<SeedData.StopSeed>)>)
    ensures |AllStops(StopEntries(next, lists))| == StopCount(lists)
    ensures forall k :: 0 <= k < StopCount(lists) ==> AllStops(StopEntries(next, lists))[k].id == next + k
    decreases |lists|
  {
    if |lists| > 0 {
      var m := StopEntries(next, lists);
      var head := NumberStops(lists[0].0, lists[0].1, next);
      StopEntriesNumbered(next + |lists[0].1|, lists[1..]);
      assert m[1..] == StopEntries(next + |lists[0].1|, lists[1..]);
      assert AllStops(m) == head + AllStops(m[1..]);
    }
  }

  /** Each seeded list is filed under its route, numbered from 1, with ids in [next, next + StopCount). */
  lemma {:induction false} StopEntriesShape(next: nat, lists: seq<(string, seq<SeedData.StopSeed>)>)
    ensures forall i :: 0 <= i < |lists| ==>
      && StopEntries(next, lists)[i].key == lists[i].0
      && |StopEntries(next, lists)[i].value| == |lists[i].1|
    ensures forall i, j :: 0 <= i < |lists| && 0 <= j < |StopEntries(next, lists)[i].value| ==>
      && StopEntries(next, lists)[i].value[j].sequence == j + 1
      && StopEntries(next, lists)[i].value[j].name == lists[i].1[j].name
      && StopEntries(next, lists)[i].value[j].scheduledTime == lists[i].1[j].time
    ensures forall i :: 0 <= i < |lists| ==>
      StopListOk(lists[i].0, StopEntries(next, lists)[i].value, next + StopCount(lists))
    ensures forall i, j :: 0 <= i < |lists| && 0 <= j < |StopEntries(next, lists)[i].value| ==>
      next <= StopEntries(next, lists)[i].value[j].id
    decreases |lists|
  {
    if |lists| > 0 {
      var m := StopEntries(next, lists);
      var next' := next + |lists[0].1|;
      StopEntriesShape(next', lists[1..]);
      forall i | 1 <= i < |lists| ensures m[i] == StopEntries(next', lists[1..])[i - 1] && lists[i] == lists[1..][i - 1] {
      }
    }
  }

  function RouteIds(routes: seq<SeedData.RouteSeed>): set<string> {
    set j | 0 <= j < |routes| :: routes[j].id
  }

  /** A configuration the seeding handles well: unique route ids, unique login names, known routes. */
  predicate WellConfigured(routes: seq<SeedData.RouteSeed>, drivers: seq<SeedData.DriverSeed>,
                           lists: seq<(string, seq<SeedData.StopSeed>)>)
  {
    && (forall i, j :: 0 <= i < j < |routes| ==> routes[i].id != routes[j].id)
    && (forall i, j :: 0 <= i < j < |drivers| ==> drivers[i].driverId != drivers[j].driverId)
    && (forall i :: 0 <= i < |drivers| ==> drivers[i].routeId in RouteIds(routes))
    && (forall i, j :: 0 <= i < j < |lists| ==> lists[i].0 != lists[j].0)
  }

  /** Seeding a well-formed configuration, written out field by field. */
  lemma SeedShape(routes: seq<SeedData.RouteSeed>, drivers: seq<SeedData.DriverSeed>,
                  lists: seq<(string, seq<SeedData.StopSeed>)>)
    requires WellConfigured(routes, drivers, lists)
    ensures Seed(routes, drivers, lists).routes == RouteEntries(routes)
    ensures Seed(routes, drivers, lists).drivers == DriverEntries(1, drivers)
    ensures Seed(routes, drivers, lists).nextDriverId == 1 + |drivers|
    ensures Seed(routes, drivers, lists).stops == StopEntries(1, lists)
  {
    assert Seed(routes, drivers, lists).routes == RouteEntries(routes) by {
      AddRoutesAppends([], routes);
      assert [] + RouteEntries(routes) == RouteEntries(routes);
    }
    assert Seed(routes, drivers, lists).drivers == DriverEntries(1, drivers) by {
      AddDriversAppends([], 1, drivers);
      assert [] + DriverEntries(1, drivers) == DriverEntries(1, drivers);
    }
    assert Seed(routes, drivers, lists).stops == StopEntries(1, lists) by {
      AddStopsAppends([], 1, lists);
      assert [] + StopEntries(1, lists) == StopEntries(1, lists);
    }
  }

  lemma RouteEntriesKeys(routes: seq<SeedData.RouteSeed>)
    ensures Keys(RouteEntries(routes)) == RouteIds(routes)
    ensures RoutesOk(RouteEntries(routes))
  {
    var m := RouteEntries(routes);
    forall id | id in RouteIds(routes) ensures id in Keys(m) {
      var j :| 0 <= j < |routes| && routes[j].id == id;
      assert m[j].key == id;
    }
  }

  lemma RouteEntriesDistinct(data: seq<SeedData.RouteSeed>)
    requires forall i, j :: 0 <= i < j < |data| ==> data[i].id != data[j].id
    ensures DistinctKeys(RouteEntries(data))
  {
  }

  lemma DriverEntriesDistinct(next: nat, data: seq<SeedData.DriverSeed>)
    ensures DistinctKeys(DriverEntries(next, data))
  {
  }

  /** Seeded drivers start inactive and keep their configured password. */
  lemma DriverEntriesFresh(next: nat, data: seq<SeedData.DriverSeed>)
    ensures forall i :: 0 <= i < |data| ==>
      && !DriverEntries(next, data)[i].value.isActive
      && DriverEntries(next, data)[i].value.password == data[i].password
  {
  }

  lemma DriverEntriesOk(routes: seq<SeedData.RouteSeed>, drivers: seq<SeedData.DriverSeed>)
    requires forall i, j :: 0 <= i < j < |drivers| ==> drivers[i].driverId != drivers[j].driverId
    requires forall i :: 0 <= i < |drivers| ==> drivers[i].routeId in RouteIds(routes)
    ensures DriversOk(DriverEntries(1, drivers), 1 + |drivers|, Keys(RouteEntries(routes)))
  {
    DriverEntriesDistinct(1, drivers);
    RouteEntriesKeys(routes);
  }

  lemma StopEntriesOk(lists: seq<(string, seq<SeedData.StopSeed>)>)
    requires forall i, j :: 0 <= i < j < |lists| ==> lists[i].0 != lists[j].0
    ensures DistinctKeys(StopEntries(1, lists))
    ensures StopsOk(StopEntries(1, lists), 1 + StopCount(lists))
  {
    StopEntriesShape(1, lists);
  }

  /** Seeding a well-formed configuration yields a store satisfying the invariant. */
  lemma SeedValid(routes: seq<SeedData.RouteSeed>, drivers: seq<SeedData.DriverSeed>,
                  lists: seq<(string, seq<SeedData.StopSeed>)>)
    requires WellConfigured(routes, drivers, lists)
    ensures Valid(Seed(routes, drivers, lists))
  {
    SeedShape(routes, drivers, lists);
    RouteEntriesKeys(routes);
    DriverEntriesOk(routes, drivers);
    StopEntriesOk(lists);
  }

  lemma ShippedRouteIdsDistinct()
    ensures forall i, j :: 0 <= i < j < |SeedData.Routes| ==> SeedData.Routes[i].id != SeedData.Routes[j].id
  {
  }

  lemma ShippedDriverIdsDistinct()
    ensures forall i, j :: 0 <= i < j < |SeedData.Drivers| ==> SeedData.Drivers[i].driverId != SeedData.Drivers[j].driverId
  {
  }

  /** The i-th configured driver drives the i-th configured route. */
  lemma ShippedDriversMatchRoutes()
    ensures |SeedData.Drivers| == |SeedData.Routes|
    ensures forall i :: 0 <= i < |SeedData.Drivers| ==> SeedData.Drivers[i].routeId == SeedData.Routes[i].id
  {
  }

  lemma ShippedStopListKeys()
    ensures |SeedData.StopLists| == 2 && SeedData.StopLists[0].0 == "1" && SeedData.StopLists[1].0 == "2"
  {
  }

  lemma ShippedRouteKeysDistinct()
    ensures DistinctKeys(RouteEntries(SeedData.Routes))
  {
    ShippedRouteIdsDistinct();
    RouteEntriesDistinct(SeedData.Routes);
  }

  lemma ShippedStopKeysDistinct()
    ensures DistinctKeys(StopEntries(1, SeedData.StopLists))
  {
    ShippedStopListKeys();
    StopEntriesOk(SeedData.StopLists);
  }

  /** The shipped configuration is well formed. */
  lemma ShippedConfigurationWellFormed()
    ensures WellConfigured(SeedData.Routes, SeedData.Drivers, SeedData.StopLists)
  {
    ShippedRouteIdsDistinct();
    ShippedDriverIdsDistinct();
    ShippedDriversMatchRoutes();
    ShippedStopListKeys();
    forall i | 0 <= i < |SeedData.Drivers| ensures SeedData.Drivers[i].routeId in RouteIds(SeedData.Routes) {
      assert SeedData.Routes[i].id in RouteIds(SeedData.Routes);
    }
  }

  /** Seeding the shipped configuration yields the initial store. */
  lemma InitialStoreIsSeeded()
    ensures Seed(SeedData.Routes, SeedData.Drivers, SeedData.StopLists) == InitialStore()
  {
    ShippedConfigurationWellFormed();
    SeedShape(SeedData.Routes, SeedData.Drivers, SeedData.StopLists);
  }

  lemma InitialDriversOk()
    ensures DriversOk(InitialDrivers(), 1 + |SeedData.Drivers|, Keys(InitialRoutes()))
  {
    ShippedConfigurationWellFormed();
    DriverEntriesOk(SeedData.Routes, SeedData.Drivers);
  }

  lemma InitialStopsOk()
    ensures StopsOk(InitialStops(), 1 + StopCount(SeedData.StopLists))
  {
    ShippedStopListKeys();
    StopEntriesOk(SeedData.StopLists);
  }

  /** The seeded store satisfies the store invariant. */
  lemma InitialStoreValid()
    ensures Valid(InitialStore())
  {
    InitialDriversOk();
    InitialStopsOk();
  }

  /** Only routes "1" and "2" have stop lists, in that order. */
  lemma InitialStopKeys()
    ensures |InitialStops()| == 2
    ensures InitialStops()[0].key == "1" && InitialStops()[1].key == "2"
  {
    ShippedStopListKeys();
  }

  /** The seeded stop lists: route "1" numbered from id 1, route "2" from id 23. */
  lemma InitialStopsShape()
    ensures |InitialStops()| == 2
    ensures InitialStops()[0].value == NumberStops("1", SeedData.Route1Stops, 1)
    ensures InitialStops()[1].value == NumberStops("2", SeedData.Route2Stops, 23)
  {
    var lists := SeedData.StopLists;
    ShippedStopListKeys();
    assert |SeedData.Route1Stops| == 22;
    assert lists[1..][1..] == [];
    assert StopEntries(1, lists) ==
      [Entry("1", NumberStops("1", SeedData.Route1Stops, 1))] + StopEntries(23, lists[1..]);
  }

  lemma ShippedStopCount()
    ensures StopCount(SeedData.StopLists) == 38
  {
    var lists := SeedData.StopLists;
    assert |SeedData.Route1Stops| == 22 && |SeedData.Route2Stops| == 16;
    assert lists[1..][1..] == [];
    assert StopCount(lists[1..]) == 16;
  }

  /** The seeded store's counters: ten drivers and 38 stops were numbered, no location yet. */
  lemma InitialCounters()
    ensures InitialStore().nextDriverId == 11
    ensures InitialStore().nextStopId == 39
    ensures InitialStore().nextLocationId == 1
  {
    ShippedStopCount();
  }

  /** Stops numbered 1, 2, 3, ... in list order. */
  predicate Sequenced(list: seq<Stop>) {
    forall i :: 0 <= i < |list| ==> list[i].sequence == i + 1
  }

  lemma InitialStopsNumbered()
    ensures forall i :: 0 <= i < |InitialStops()| ==> Sequenced(InitialStops()[i].value)
  {
    StopEntriesShape(1, SeedData.StopLists);
  }

  lemma StopsByRouteSequenced(s: Store, routeId: string)
    requires forall j :: 0 <= j < |s.stops| ==> Sequenced(s.stops[j].value)
    ensures Sequenced(GetStopsByRoute(s, routeId))
  {
    if routeId in Keys(s.stops) {
      var j :| 0 <= j < |s.stops| && s.stops[j].key == routeId;
      assert GetStopsByRoute(s, routeId) == s.stops[j].value;
    }
  }

  /** Every seeded stop list is numbered 1, 2, 3, ... in list order. */
  lemma SeededStopsNumberedFromOne(routeId: string)
    ensures forall i :: 0 <= i < |GetStopsByRoute(InitialStore(), routeId)| ==>
      GetStopsByRoute(InitialStore(), routeId)[i].sequence == i + 1
  {
    InitialStopsNumbered();
    StopsByRouteSequenced(InitialStore(), routeId);
  }

  /** Across all routes, in iteration order, the seeded stop ids are 1, 2, 3, ...: distinct and increasing. */
  lemma SeededStopIdsIncrease()
    ensures |AllStops(InitialStore().stops)| == InitialStore().nextStopId - 1
    ensures forall k :: 0 <= k < |AllStops(InitialStore().stops)| ==> AllStops(InitialStore().stops)[k].id == k + 1
  {
    StopEntriesNumbered(1, SeedData.StopLists);
  }

  lemma InitialRoutesHead()
    ensures |InitialRoutes()| == 10
    ensures InitialRoutes()[0] == Entry("1", Route("1", "Route 1", "Prince School", 22, true))
    ensures InitialRoutes()[1] == Entry("2", Route("2", "Route 2", "Perungudi", 16, true))
  {
  }

  lemma InitialRoute1()
    ensures GetRoute(InitialStore(), "1") == Some(Route("1", "Route 1", "Prince School", 22, true))
  {
    InitialRoutesHead();
  }

  lemma InitialRoute2()
    ensures GetRoute(InitialStore(), "2") == Some(Route("2", "Route 2", "Perungudi", 16, true))
  {
    InitialRoutesHead();
  }

  /** Route "1" has as many seeded stops as it advertises. */
  lemma SeededRoute1CountMatchesTotal()
    ensures GetRoute(InitialStore(), "1").Some?
    ensures |GetStopsByRoute(InitialStore(), "1")| == GetRoute(InitialStore(), "1").value.totalStops == 22
  {
    InitialRoute1();
    InitialStopKeys();
    InitialStopsShape();
    assert GetStopsByRoute(InitialStore(), "1") == InitialStops()[0].value;
  }

  /** Route "2" has as many seeded stops as it advertises. */
  lemma SeededRoute2CountMatchesTotal()
    ensures GetRoute(InitialStore(), "2").Some?
    ensures |GetStopsByRoute(InitialStore(), "2")| == GetRoute(InitialStore(), "2").value.totalStops == 16
  {
    InitialRoute2();
    InitialStopKeys();
    InitialStopsShape();
    assert GetStopsByRoute(InitialStore(), "2") == InitialStops()[1].value;
  }

  /** Every route other than "1" and "2" has no stop list, so its stops read as empty. */
  lemma OnlyRoutes1And2HaveStops(routeId: string)
    requires routeId != "1" && routeId != "2"
    ensures GetStopsByRoute(InitialStore(), routeId) == []
  {
    InitialStopKeys();
    var m := InitialStops();
    assert forall i :: 0 <= i < |m| ==> m[i].key != routeId;
  }

  lemma ShippedTotalsPositive()
    ensures forall i :: 0 <= i < |SeedData.Routes| ==> SeedData.Routes[i].totalStops > 0
  {
  }

  lemma RouteEntriesTotals(data: seq<SeedData.RouteSeed>)
    requires forall i :: 0 <= i < |data| ==> data[i].totalStops > 0
    ensures forall i :: 0 <= i < |data| ==> RouteEntries(data)[i].value.totalStops > 0
  {
  }

  lemma InitialRoutesAdvertiseStops()
    ensures forall i :: 0 <= i < |InitialRoutes()| ==> InitialRoutes()[i].value.totalStops > 0
  {
    ShippedTotalsPositive();
    RouteEntriesTotals(SeedData.Routes);
  }

  /** Every seeded route advertises a positive number of stops, whether or not it has a stop list. */
  lemma SeededRoutesAdvertiseStops(routeId: string)
    ensures GetRoute(InitialStore(), routeId).Some? ==> GetRoute(InitialStore(), routeId).value.totalStops > 0
  {
    var routes := InitialRoutes();
    if routeId in Keys(routes) {
      InitialRoutesAdvertiseStops();
      var i :| 0 <= i < |routes| && routes[i].key == routeId;
      assert GetRoute(InitialStore(), routeId) == Some(routes[i].value);
    }
  }

  lemma InitialDriversFresh()
    ensures forall i :: 0 <= i < |InitialDrivers()| ==>
      !InitialDrivers()[i].value.isActive && InitialDrivers()[i].value.password == SeedData.SharedPassword
  {
    assert forall i :: 0 <= i < |SeedData.Drivers| ==> SeedData.Drivers[i].password == SeedData.SharedPassword;
    DriverEntriesFresh(1, SeedData.Drivers);
  }

  /** Every seeded driver starts inactive and has the shared password. */
  lemma SeededDriversInactive()
    ensures forall i :: 0 <= i < |InitialStore().drivers| ==>
      !InitialStore().drivers[i].value.isActive && InitialStore().drivers[i].value.password == SeedData.SharedPassword
  {
    InitialDriversFresh();
  }

  /** Every seeded driver is assigned to a seeded route. */
  lemma SeededDriversOnSeededRoutes()
    ensures forall i :: 0 <= i < |InitialStore().drivers| ==>
      GetRoute(InitialStore(), InitialStore().drivers[i].value.routeId).Some?
  {
    InitialDriversOk();
  }

  lemma InitialDriversHead()
    ensures |InitialDrivers()| == 10
    ensures InitialDrivers()[0].value == Driver(1, "1001", SeedData.SharedPassword, "Route 1 Driver", "1", false)
  {
  }

  /** Login name "1001" is the first seeded driver, on route "1". */
  lemma SeededDriver1001()
    ensures GetDriverByDriverId(InitialStore(), "1001") ==
      Some(Driver(1, "1001", SeedData.SharedPassword, "Route 1 Driver", "1", false))
  {
    InitialDriversHead();
  }
}

=== FILE: wrappers.dfy ===
/** Optional values: the model's rendering of JavaScript's `undefined` / `null`. */
module Wrappers {

  datatype Option<+T> = None | Some(value: T) {

    /** The wrapped value, or `default` when there is none (the `x || default` idiom). */
    function GetOr(default: T): T {
      match this
      case Some(v) => v
      case None => default
    }
  }
}
